=== FILE: README.md ===
# TranscriptIQ in Dafny

TranscriptIQ is an interview-analysis web app. Researchers group interview transcripts into projects. They can ask an AI model for key themes and disagreements, or chat with the transcripts. Several edge functions run on a Supabase/Deno backend, and a React front end drives them. This project models the logic of both halves as pure Dafny functions over immutable datatypes and proves properties about them.

What is modelled:

- **Server side** (`chat-with-transcripts`, `analyze-transcripts`, `send-auth-email`):
  - request validation;
  - assembly of the `=== filename ===` corpus;
  - extraction of the JSON span from the model's reply (the greedy `\{[\s\S]*\}` match);
  - the plain-text fallback;
  - the case-insensitive removal of quotes attributed to the interviewer "Jamie Horton", including the TypeErrors JavaScript would throw;
  - the conversation record;
  - the email templates;
  - every HTTP status, and every error message the handlers write themselves. The messages the JavaScript engine writes (a body that is not JSON, a TypeError) are parameters.
- **Client hooks** (`useProjects`, `useProjectContext`, `useTranscripts`, `useChatConversations`):
  - local state mirrors the store, and a change is applied only when the store reports success;
  - prepend, replace-by-id and filter-by-id updates;
  - the context append rule with its `---` separator;
  - the transcript size rounding;
  - the normalisation of stored quotes.
- **Components and pages**:
  - the trim gates of every form and the disabled states that match them;
  - the PDF-only file selection;
  - the quote cleanup toggle;
  - the analysis panel and its colour rules;
  - the dashboard statistics;
  - how the dialogs close.

How the outside world appears in the model:

- The store, the model endpoint, the mail client and the edge-function invocations become parameters. Each one is an `Outcome` (success with a value, or failure), or a small datatype of reply shapes.
- `JSON.parse` is a parameter `parse: string -> Option<Json>`.
- Random ids and timestamps are supplied by the caller.
- A model reply is one of a few shapes: a failed status, a 2xx body that cannot be read, or a readable envelope.
- An element of the `transcripts` array is either `null` or an item whose `filename` and `content` arrive already rendered as text.

Files, one module each:

- `wrappers.dfy`: `Option` and `Outcome`.
- `text.dfy`: JavaScript `trim`, ASCII `toLowerCase`, `includes`, and decimal rendering.
- `lists.dfy`: filter, replace, index-filter and join, with their layout lemmas.
- `json.dfy`: JSON values, truthiness and property reads.
- `extraction.dfy`: the brace-span regex.
- `corpus.dfy`: transcript blocks.
- `quote_filter.dfy`: the interviewer filter.
- `model_reply.dfy`: the shapes of the model endpoint's reply.
- `chat_handler.dfy`, `analyze_handler.dfy`, `auth_email.dfy`: the three edge functions.
- `projects_hook.dfy`, `project_context_hook.dfy`, `transcripts_hook.dfy`, `chat_conversations_hook.dfy`: the hooks.
- `analysis_view.dfy`, `file_upload.dfy`, `quote_toggle.dfy`, `transcript_text_input.dfy`, `create_project_modal.dfy`, `edit_project_modal.dfy`, `chat_interface.dfy`, `context_input.dfy`: the components.
- `index_page.dfy`, `project_detail_page.dfy`: the pages.

## Model

| member | source | states |
|---|---|---|
| Text.Trim | src/components/TranscriptTextInput.tsx:20-23 | The result is a contiguous slice of the input. Only whitespace lies before and after it, and the result itself neither starts nor ends with whitespace. |
| Text.ToLower | supabase/functions/chat-with-transcripts/index.ts:160-162 | Lower-casing keeps the length and maps each character on its own. |
| Text.TrimEmptyIffAllWhitespace | src/components/CreateProjectModal.tsx:23 | A value trims to `""` exactly when every character is JavaScript whitespace, so every blank-input gate in the forms is this predicate. |
| Text.TrimIdempotent | src/components/TranscriptChatInterface.tsx:28-30 | Trimming an already trimmed value changes nothing. |
| Text.Includes | supabase/functions/chat-with-transcripts/index.ts:160-162 | `includes` is true exactly when the needle occurs at some position of the haystack. |
| Text.NatToStringRoundTrip | supabase/functions/analyze-transcripts/index.ts:105 | The decimal digits interpolated for a status code read back as that number. |
| Lists.Filter | src/hooks/useProjects.ts:163 | Every kept element satisfies the predicate, and each satisfying element keeps its multiplicity. |
| Lists.FilterIsSubsequence | src/hooks/useTranscripts.ts:97 | Filtering keeps the survivors in their original relative order. |
| Lists.FilterKeepsAll | src/hooks/useProjects.ts:163 | A filter that every element passes returns the list unchanged. |
| Lists.FilterIdempotent | supabase/functions/chat-with-transcripts/index.ts:159-163 | Filtering twice with the same predicate is filtering once. |
| Lists.ReplaceWhere | src/hooks/useProjects.ts:134 | The length is kept; matching positions hold the new value and all other positions are untouched. |
| Lists.ReplaceWhereIdempotent | src/hooks/useProjects.ts:134 | Applying the same replacement twice equals applying it once. |
| Lists.FilterIndexRemovesAt | src/components/FileUpload.tsx:49-51 | The index filter deletes exactly the element at an in-range index, and nothing for an out-of-range index. |
| Lists.JoinLength | supabase/functions/chat-with-transcripts/index.ts:56-58 | A join is as long as its pieces plus one separator between each pair of neighbours. |
| Lists.JoinPieceAt | supabase/functions/chat-with-transcripts/index.ts:56-58 | Piece i sits at its offset in input order, and the next piece starts one piece and one separator later. |
| Lists.JoinSeparatorAt | supabase/functions/chat-with-transcripts/index.ts:58 | Exactly one separator lies between piece i and piece i+1. |
| Json.Prop | supabase/functions/chat-with-transcripts/index.ts:158-162 | Reading a property throws exactly on `null`. It yields a value exactly when an object has the key, and that value is the field. |
| Extraction.IndexOf | supabase/functions/chat-with-transcripts/index.ts:139 | Finds the first occurrence of a character, or reports that there is none. |
| Extraction.LastIndexOf | supabase/functions/chat-with-transcripts/index.ts:139 | Finds the last occurrence of a character, or reports that there is none. |
| Extraction.BraceSpan | supabase/functions/chat-with-transcripts/index.ts:139-140 | The regex matches exactly when some `{` has a later `}`. The match is the leftmost start with the longest end. |
| Extraction.ExtractSpan | supabase/functions/analyze-transcripts/index.ts:121-123 | The span is a slice starting with `{` and ending with `}`, with no `{` before it and no `}` after it. |
| Extraction.NoOpeningBraceNoSpan | supabase/functions/analyze-transcripts/index.ts:124-126 | Text without `{` has no span, which is the "No JSON found" branch. |
| Extraction.WholeObjectIsItsOwnSpan | supabase/functions/analyze-transcripts/index.ts:121-123 | Text that is a brace-delimited object is its own span. |
| Extraction.ProseAroundObject | supabase/functions/chat-with-transcripts/index.ts:138-141 | Prose without braces around an object is cut away, leaving exactly the object. |
| Corpus.BlockParts | supabase/functions/chat-with-transcripts/index.ts:57 | A block is `=== `, the filename, ` ===` plus a newline, then the content, at the stated offsets. |
| Corpus.Block | supabase/functions/chat-with-transcripts/index.ts:57 | A block is nine characters longer than its filename and content together, and its content can be read back after the header. |
| Corpus.Assemble | supabase/functions/chat-with-transcripts/index.ts:56-58 | No blocks give `""` and one block gives itself. n blocks give the blocks' total length plus n-1 separators. |
| Corpus.AssembleLayout | supabase/functions/chat-with-transcripts/index.ts:56-58 | In the assembled corpus each block sits at its offset, with `\n\n` between neighbours. |
| QuoteFilter.LowerField | supabase/functions/chat-with-transcripts/index.ts:160-162 | `?.toLowerCase()` yields the lower-cased string exactly for a string field. An absent or null field yields undefined; a null quote or a non-string field throws. |
| QuoteFilter.KeepQuote | supabase/functions/chat-with-transcripts/index.ts:159-163 | For a well-formed quote the callback keeps it exactly when the exclusion rule does not hold. A null quote, or a participant that is neither string nor null, throws. |
| QuoteFilter.KeepQuoteIff | supabase/functions/chat-with-transcripts/index.ts:159-163 | A well-formed quote never throws. It is kept exactly when its participant mentions neither "jamie" nor "horton" and its text does not mention "jamie horton", ignoring case. |
| QuoteFilter.MissingFieldsKept | supabase/functions/chat-with-transcripts/index.ts:160-162 | Optional chaining makes a quote without participant and text survive. |
| QuoteFilter.AttributedToJamieDropped | supabase/functions/chat-with-transcripts/index.ts:160 | Any participant name that contains "Jamie" is dropped, whatever the text. |
| QuoteFilter.FilterQuotes | supabase/functions/chat-with-transcripts/index.ts:159-163 | The filter throws exactly when some quote's callback throws. Otherwise it keeps exactly the accepted quotes, with their multiplicity. |
| QuoteFilter.FilterQuotesSubsequence | supabase/functions/chat-with-transcripts/index.ts:159-163 | Surviving quotes keep the model's order. |
| QuoteFilter.FilterQuotesIdempotent | supabase/functions/chat-with-transcripts/index.ts:157-164 | Filtering an already filtered list again changes nothing. |
| QuoteFilter.NoExcludedSurvivor | supabase/functions/chat-with-transcripts/index.ts:157-164 | No well-formed quote that meets the exclusion rule is left in the filtered list. |
| ModelReply.OptionalText | supabase/functions/chat-with-transcripts/index.ts:126 | The optional chain yields a value exactly when the first part has a `text` property. That value is passed on as it is, whatever its JSON type. |
| ModelReply.ParsedText | supabase/functions/analyze-transcripts/index.ts:115-130 | A parsed value exists exactly when the text is a string whose brace span parses, and it is the parser's value for that span. A text that is not a string yields nothing, since `match` throws on it. |
| ChatHandler.CorpusInFetchOrder | supabase/functions/chat-with-transcripts/index.ts:56-58 | Row i's block sits at its offset in the corpus. The corpus is the blocks plus n-1 separators. |
| ChatHandler.ParseOrFallback | supabase/functions/chat-with-transcripts/index.ts:135-155 | A string text whose span parses yields the parser's value. No span, a failed parse or a non-string text (on which `match` throws) yields `{response: text, quotes: []}`. |
| ChatHandler.FilterResponse | supabase/functions/chat-with-transcripts/index.ts:157-164 | With truthy quotes, only the quotes key is replaced by the filtered list and the other keys stay as they were. A truthy non-array throws. Without quotes the value passes unchanged, and a null value throws. |
| ChatHandler.Answer | supabase/functions/chat-with-transcripts/index.ts:135-164 | A successful answer is never `null`. When the text yields no parsed value, the answer is the fallback object unchanged, because its empty quote list filters to itself. |
| ChatHandler.InsertFor | supabase/functions/chat-with-transcripts/index.ts:166-174 | The record carries the question and project id. `ai_response` is the answer's `response`, present exactly when the answer is an object that has one. `response_quotes` holds the answer's truthy quotes, or `[]` otherwise. |
| ChatHandler.Handle | supabase/functions/chat-with-transcripts/index.ts:16-192 | A body that is not JSON, or is null, gives 500 "Internal server error". Status is always 200, 400 or 500, and 400 comes exactly from a non-null body without a truthy question or project id. The store is queried exactly for valid requests. A fetch error gives "Failed to fetch transcripts" and no rows gives the fixed 200 reply. Rows without a key give "Gemini API key not configured". The corpus reaches the model exactly when rows exist and the key is set. A failed call gives "Failed to generate AI response". A 2xx reply whose body is not JSON, or is null, gives 500 "Internal server error". A falsy text gives "No response generated from AI". For a truthy text the reply is 200 with the filtered answer and the matching record from InsertFor, or 500 "Internal server error" when the filter throws. A record is inserted exactly on a 200 that consulted the model. |
| ChatHandler.SaveFailureSwallowed | supabase/functions/chat-with-transcripts/index.ts:176-179 | A failed insert never changes the reply. |
| ChatHandler.FallbackAnswered | supabase/functions/chat-with-transcripts/index.ts:139-184 | A truthy text that yields no parsed value gives 200 with the text as the response and no quotes. This covers a string without a parsable span and any truthy non-string. The record stores that text and `[]`. |
| ChatHandler.NumericTextAnswered | supabase/functions/chat-with-transcripts/index.ts:126-154 | A number in place of the text is answered as it stands, not rejected. |
| ChatHandler.FalsyTextRejected | supabase/functions/chat-with-transcripts/index.ts:128-133 | An absent or falsy text gives 500 "No response generated from AI" and nothing is recorded. |
| ChatHandler.AnsweredQuotesExcludeInterviewer | supabase/functions/chat-with-transcripts/index.ts:157-184 | A successful reply never carries a well-formed quote that meets the exclusion rule. |
| AnalyzeHandler.ContentOrPlaceholder | supabase/functions/analyze-transcripts/index.ts:30 | Missing content becomes the placeholder, so no block body is empty. |
| AnalyzeHandler.AnalysisBlocks | supabase/functions/analyze-transcripts/index.ts:29-31 | When no element is null, there is one block per transcript item. |
| AnalyzeHandler.FirstNullItem | supabase/functions/analyze-transcripts/index.ts:29-30 | There is a message exactly when some element is null. It is the message of the first null element, with only non-null elements before it. |
| AnalyzeHandler.CorpusInInputOrder | supabase/functions/analyze-transcripts/index.ts:29-31 | Item i's block, with the placeholder applied, sits at its offset in the corpus. |
| AnalyzeHandler.Analyze | supabase/functions/analyze-transcripts/index.ts:17-130 | An unreadable body fails first, with the engine's message. Then the key is checked, then the transcripts. A null element then fails with the first such element's TypeError. The model is called exactly when all these checks pass, with the input-order corpus. A failed call gives "Gemini API error: status body". A 2xx reply whose body is not JSON, or is null, fails with the engine's message. A reply without `candidates[0].content` gives "Invalid response from Gemini API". A missing first part gives the engine's TypeError. Otherwise the outcome is the analysis exactly when the text yields a parsed value, and "Failed to parse AI response as JSON" otherwise. |
| AnalyzeHandler.Respond | supabase/functions/analyze-transcripts/index.ts:132-142 | An analysis goes out unchanged with status 200. Any failure gives status 500 with `{error: message}`. |
| AnalyzeHandler.Handle | supabase/functions/analyze-transcripts/index.ts:15-143 | The reply is 200 exactly when an analysis was produced, and its body is that analysis. Every failure is a 500 `{error: message}` with the failure's message. |
| AnalyzeHandler.BodyReadFirst | supabase/functions/analyze-transcripts/index.ts:17 | A body that cannot be read fails with the engine's message, whatever the key, transcripts or model reply. |
| AnalyzeHandler.NullItemStopsBeforeModel | supabase/functions/analyze-transcripts/index.ts:24-31 | A transcripts array with a null element passes the checks, yet the model is never called and the reply is 500 with that element's TypeError. |
| AnalyzeHandler.ApiKeyCheckedFirst | supabase/functions/analyze-transcripts/index.ts:17-22 | Once the body is read, a missing key gives the key error, whatever the transcripts or the model reply. |
| AnalyzeHandler.EnvelopeErrors | supabase/functions/analyze-transcripts/index.ts:102-113 | A failed call carries its status and body text, and an envelope without content gives its own message. |
| AnalyzeHandler.ParseFailuresCollapse | supabase/functions/analyze-transcripts/index.ts:115-130 | A missing span, a failed parse and a non-string text give the same 500 message. |
| AnalyzeHandler.CleanReplyReturnedUnchanged | supabase/functions/analyze-transcripts/index.ts:121-134 | A reply that is a whole object is returned exactly as parsed, with no shape check and no filtering. |
| AuthEmail.BaseUrl | supabase/functions/send-auth-email/index.ts:34 | A non-empty redirect target wins; otherwise the default host is used. |
| AuthEmail.TemplateFor | supabase/functions/send-auth-email/index.ts:36-120 | Exactly signup, recovery and magic_link have a template, each with its subject and link format. |
| AuthEmail.SubjectsDistinct | supabase/functions/send-auth-email/index.ts:38-92 | The three supported types have pairwise different subjects. |
| AuthEmail.LinksStartWithBaseUrl | supabase/functions/send-auth-email/index.ts:51-105 | Every link starts with the base URL. |
| AuthEmail.Handle | supabase/functions/send-auth-email/index.ts:27-147 | An unreadable body gives 500 with the engine's message and sends nothing. Otherwise an email is sent exactly for a supported type. It goes from the fixed sender to the requested address, with the subject and link of that type's template for the redirect base and the token. An unsupported type gives "Unsupported email type: …". A send that throws gives 500 with its message. A send that returns gives 200 `success: true`, carrying `messageId` exactly when the client returned one. |
| AuthEmail.InviteAndEmailChangeUnsupported | supabase/functions/send-auth-email/index.ts:15-119 | The two declared types `invite` and `email_change` fail with status 500 without sending. |
| AuthEmail.SignupLinkDefault | supabase/functions/send-auth-email/index.ts:34-51 | Without a redirect target the signup link points at the default host. |
| ProjectsHook.FlattenCount | src/hooks/useProjects.ts:50 | The count is the first aggregate row's count, or 0 when the aggregate is missing or empty. |
| ProjectsHook.Fetch | src/hooks/useProjects.ts:20-63 | No user empties the list. A store error keeps the list. Otherwise the list holds the flattened rows in store order. Loading ends in every case. |
| ProjectsHook.Create | src/hooks/useProjects.ts:65-110 | No user means nothing is written. Only name and description are inserted. Success prepends the stored row and returns it; failure changes nothing. |
| ProjectsHook.Update | src/hooks/useProjects.ts:112-145 | The write always carries the given id with the given name and description. Success puts the stored row in place of every entry with that id and keeps the rest. Failure changes nothing. |
| ProjectsHook.Delete | src/hooks/useProjects.ts:147-174 | Success removes every entry with that id and keeps every other entry with its multiplicity. The boolean reports success. |
| ProjectsHook.DeleteKeepsOrder | src/hooks/useProjects.ts:163 | The survivors keep their order. |
| ProjectsHook.CreateThenDelete | src/hooks/useProjects.ts:95-163 | Deleting a freshly created project restores the previous list. |
| ProjectContextHook.Appended | src/hooks/useProjectContext.ts:40 | The old context is a prefix of the result and the addition is its suffix. The separator sits between them when the old context is non-empty; an empty old context gives the addition alone. |
| ProjectContextHook.Fetch | src/hooks/useProjectContext.ts:11-35 | A null or missing context reads as empty. An error keeps the local context. Loading ends. |
| ProjectContextHook.Save | src/hooks/useProjectContext.ts:37-72 | The appended value is written. It is applied locally exactly when the store accepts it, and the boolean reports that. |
| ProjectContextHook.Update | src/hooks/useProjectContext.ts:74-106 | The replacement is written and applied exactly on success. |
| ProjectContextHook.Delete | src/hooks/useProjectContext.ts:108-140 | `""` is written and applied exactly on success. |
| ProjectContextHook.SaveAfterDelete | src/hooks/useProjectContext.ts:40-124 | After a delete, the next save stores exactly the new text. |
| ProjectContextHook.SaveEmptyAppendsSeparator | src/hooks/useProjectContext.ts:40 | Saving `""` onto a non-empty context appends a bare separator. |
| ProjectContextHook.SavesOnlyExtend | src/hooks/useProjectContext.ts:37-72 | Over any series of saves, successful or not, the earlier context remains a prefix. |
| TranscriptsHook.SizeTenths | src/hooks/useTranscripts.ts:47 | The size in tenths of a KB is the length/1024 rounded half up to one decimal. It is characterized by the interval that contains 10·len+512. |
| TranscriptsHook.SizeTenthsUnique | src/hooks/useTranscripts.ts:47 | That interval determines the size uniquely. |
| TranscriptsHook.SizeTenthsMonotone | src/hooks/useTranscripts.ts:47 | Longer content never shows a smaller size. |
| TranscriptsHook.SizeTenthsSamples | src/hooks/useTranscripts.ts:47 | Up to 51 characters shows as 0.0, 52 characters as 0.1, and 1024 characters as 1.0. |
| TranscriptsHook.Fetch | src/hooks/useTranscripts.ts:20-43 | The rows are taken in store order, and a missing answer means no rows. An error keeps the list. Loading ends. |
| TranscriptsHook.Add | src/hooks/useTranscripts.ts:45-80 | The inserted size is computed from the content. Success prepends the stored row; failure changes nothing. The boolean reports success. |
| TranscriptsHook.Delete | src/hooks/useTranscripts.ts:82-106 | Success removes every transcript with that id and keeps all others with their multiplicity. |
| TranscriptsHook.AddThenDelete | src/hooks/useTranscripts.ts:69-97 | Deleting a freshly added transcript restores the list. |
| ChatConversationsHook.NormaliseQuotes | src/hooks/useChatConversations.ts:58 | An array of quotes is kept as is; anything else becomes `[]`. |
| ChatConversationsHook.NormaliseQuotesIdempotent | src/hooks/useChatConversations.ts:58 | Normalising twice is normalising once. |
| ChatConversationsHook.Fetch | src/hooks/useChatConversations.ts:39-67 | The list holds the normalised rows in store order. An error keeps the list. Loading ends and the sending flag is untouched. |
| ChatConversationsHook.SendMessage | src/hooks/useChatConversations.ts:69-100 | The question and project id are sent. Sending is on during the call and off after it. History is reloaded and true returned exactly when the call succeeds; otherwise the state is unchanged. |
| ChatConversationsHook.Clear | src/hooks/useChatConversations.ts:102-131 | Success empties the history; failure changes nothing. |
| ChatConversationsHook.FetchedQuotesFromRows | src/hooks/useChatConversations.ts:56-60 | Each fetched conversation's quotes are its row's array, or empty. |
| AnalysisView.ConfidenceColor | src/components/AIAnalysisResults.tsx:92-96 | Green is returned exactly from 0.9 up, yellow exactly on [0.8, 0.9), and red exactly below 0.8. |
| AnalysisView.ConfidencePercent | src/components/AIAnalysisResults.tsx:209 | The shown percentage is within half a unit of confidence·100. |
| AnalysisView.IntensityColor | src/components/AIAnalysisResults.tsx:98-105 | The colour is red, yellow or green exactly for high, medium or low, ignoring case, and gray for anything else. |
| AnalysisView.IntensityColorIgnoresCase | src/components/AIAnalysisResults.tsx:99 | The colour depends on the intensity only up to case. |
| AnalysisView.ToLowerIdempotent | src/components/AIAnalysisResults.tsx:99 | Lower-casing twice is the same as lower-casing once. |
| AnalysisView.ParticipantCount | src/components/AIAnalysisResults.tsx:264 | A missing participant list counts as 0. |
| AnalysisView.BodyError | src/components/AIAnalysisResults.tsx:69-71 | Null data throws a TypeError. A string `error` is the message, and there is no error exactly when the data is not null and has no truthy `error`. |
| AnalysisView.RunAnalysis | src/components/AIAnalysisResults.tsx:49-90 | With no transcripts only the error is set and nothing is invoked. Otherwise loading is on with the error cleared. Success replaces the analysis. Any failure keeps the previous analysis and sets the error: the invocation's message, or the error the returned body carries. |
| AnalysisView.PanelOf | src/components/AIAnalysisResults.tsx:107-165 | The spinner shows exactly while loading. The failure card shows exactly when nothing is loading, the analysis is falsy and the error is non-empty, and it shows that error. The start card shows exactly when nothing is loading and both the analysis and the error are falsy. Results show exactly when nothing is loading and the analysis is truthy. |
| AnalysisView.FailedRerunKeepsResults | src/components/AIAnalysisResults.tsx:79-86 | A failed re-analysis leaves earlier truthy results on screen. |
| AnalysisView.EmptyProjectShowsMessage | src/components/AIAnalysisResults.tsx:50-53 | Pressing start with no transcripts shows the fixed failure message. |
| AnalysisView.FalsyDataShowsStartCard | src/components/AIAnalysisResults.tsx:69-73 | A falsy value returned without an error is stored as the analysis, yet the start card is what shows. |
| FileUpload.PdfOnly | src/components/FileUpload.tsx:30-32 | Only PDFs are kept, each with its multiplicity and in order. |
| FileUpload.Drag | src/components/FileUpload.tsx:15-23 | dragenter and dragover highlight the zone, dragleave clears the highlight, and other events change nothing. |
| FileUpload.Drop | src/components/FileUpload.tsx:25-37 | The highlight is cleared. The selection is replaced exactly when a PDF was dropped. |
| FileUpload.Select | src/components/FileUpload.tsx:39-47 | The selection is replaced exactly when a PDF was picked, and a missing file list counts as empty. |
| FileUpload.RemoveFile | src/components/FileUpload.tsx:49-51 | Exactly the file at the index goes. |
| FileUpload.Upload | src/components/FileUpload.tsx:53-61 | A non-empty selection is forwarded whole and then cleared; an empty one does nothing. |
| FileUpload.EventsKeepValid | src/components/FileUpload.tsx:15-61 | Every event keeps the selection PDF-only. |
| FileUpload.UploadLabel | src/components/FileUpload.tsx:131 | The label carries the count's digits, and "files" ends in s exactly for counts other than 1. |
| FileUpload.UploadLabelCount | src/components/FileUpload.tsx:131 | The label's digits read back as the count. |
| FileUpload.SizeTenthsMb | src/components/FileUpload.tsx:115 | The size in tenths of a MB is rounded half up. |
| QuoteToggle.CleanupClick | src/components/QuoteCleanupToggle.tsx:20-55 | With a truthy cleaned quote the click only flips the view. Otherwise the function is called with the quote, participant and context. A failure or null data changes nothing but loading; success stores `cleanedQuote` and shows it. |
| QuoteToggle.Toggle | src/components/QuoteCleanupToggle.tsx:57-59 | The toggle flips the view and nothing else. |
| QuoteToggle.ToggleTwice | src/components/QuoteCleanupToggle.tsx:57-59 | Toggling twice restores the state. |
| QuoteToggle.Displayed | src/components/QuoteCleanupToggle.tsx:94 | The cleaned quote shows exactly when wanted and truthy; otherwise the original shows. |
| QuoteToggle.MainLabel | src/components/QuoteCleanupToggle.tsx:76 | The label is "Clean Up Quote" exactly without a cleaned quote. With one, it is "Show Original" exactly when the cleaned quote is on screen. |
| QuoteToggle.LabelOffersOtherVersion | src/components/QuoteCleanupToggle.tsx:76-94 | The label always offers the version that is not on screen. |
| QuoteToggle.SecondClickOnlyToggles | src/components/QuoteCleanupToggle.tsx:21-39 | After a useful cleanup, the next click calls nothing and shows the original. |
| TranscriptTextInput.SubmitDisabled | src/components/TranscriptTextInput.tsx:76 | The button is disabled exactly when the text or the name is blank. |
| TranscriptTextInput.Submit | src/components/TranscriptTextInput.tsx:18-28 | A submission happens exactly when the button is enabled. It carries the trimmed name and text and clears both fields; otherwise nothing changes. |
| TranscriptTextInput.AddedIsClean | src/components/TranscriptTextInput.tsx:20-24 | A submitted transcript is non-empty and carries no surrounding whitespace. |
| ProjectDetailPage.OnRoute | src/pages/ProjectDetail.tsx:37-49 | The placeholder project uses the route id, or "1" when that id is missing or empty. There are no transcripts and the count is in sync. |
| ProjectDetailPage.TranscriptAdd | src/pages/ProjectDetail.tsx:51-74 | The transcript is appended, with the hook's size rule. The count becomes the old length plus one, which keeps it in sync. |
| ProjectDetailPage.PasteOne | src/pages/ProjectDetail.tsx:51-68 | A refused paste leaves the page unchanged. An accepted one appends exactly one transcript. It carries the supplied id, the trimmed name, the trimmed text and that text's size in tenths of a kilobyte. The old list stays a prefix, and a count in sync stays in sync. |
| ProjectDetailPage.PastesKeepCountInSync | src/pages/ProjectDetail.tsx:51-68 | Over any series of form submissions the count stays equal to the number of transcripts. The list only grows, by at most one per submission. |
| CreateProjectModal.Submit | src/components/CreateProjectModal.tsx:21-33 | A blank name stops the submission. Otherwise it sends the trimmed name and description, and the transcript text exactly when it is not blank. The form is cleared before the outcome is known. |
| CreateProjectModal.Close | src/components/CreateProjectModal.tsx:35-40 | Closing empties every field. |
| EditProjectModal.Populate | src/components/EditProjectModal.tsx:29-34 | A given project fills the form; without one the form is kept. |
| EditProjectModal.Submit | src/components/EditProjectModal.tsx:36-45 | A submission happens exactly with a non-blank name and a project. It carries the project's id and the trimmed fields, clears the form and asks the page to close. |
| EditProjectModal.Close | src/components/EditProjectModal.tsx:47-51 | Closing clears the form and asks the page to close. |
| EditProjectModal.UnchangedSubmitSendsProjectValues | src/components/EditProjectModal.tsx:29-45 | Submitting an untouched form sends the project's own values, trimmed. |
| IndexPage.TotalTranscripts | src/pages/Index.tsx:50 | The total is non-negative when all counts are, and 0 when all counts are 0. |
| IndexPage.TotalTranscriptsAppend | src/pages/Index.tsx:50 | The total of a concatenation is the sum of the totals. |
| IndexPage.AnalyzedCount | src/pages/Index.tsx:51 | The count is at most the number of projects. It equals that number exactly when all are analysed, and 0 exactly when none is. AnalyzedCountIsFilterLength ties it to the filtered list's length. |
| IndexPage.AnalyzedCountIsFilterLength | src/pages/Index.tsx:51 | The count equals the length of the list filtered to the projects with a truthy last-analysed date. |
| IndexPage.AnalyzedCountAppend | src/pages/Index.tsx:51 | The count of a concatenation is the sum of the counts. |
| IndexPage.StatsOf | src/pages/Index.tsx:96-116 | The dashboard shows the number of projects, the transcript total, and twice the analysed count, which is at most twice the number of projects. |
| IndexPage.CreateAddsToTotal | src/pages/Index.tsx:26-50 | A created project adds its count to the total. |
| IndexPage.AfterCreate | src/pages/Index.tsx:26-31 | The create dialog closes exactly when a project came back. |
| IndexPage.OpenEdit | src/pages/Index.tsx:33-36 | Opening the edit dialog records the project. |
| IndexPage.CloseEdit | src/pages/Index.tsx:170-173 | Closing the edit dialog forgets the project. |
| IndexPage.AfterUpdate | src/pages/Index.tsx:38-44 | The dialog closes exactly when an updated project came back. |
| IndexPage.SubmitCreate | src/pages/Index.tsx:26-31 | A refused submission changes nothing. An accepted one empties the form, sends only the trimmed name and description to the create operation and takes on its state. The dialog then stays open exactly when no project came back. |
| IndexPage.SubmitEdit | src/pages/Index.tsx:38-44 | A refused submission changes nothing and writes nothing. An accepted one closes the edit dialog and forgets the project. It writes the edited project's id with the trimmed name and description, and the list becomes what the update makes of it. |
| IndexPage.FailedCreateLosesForm | src/pages/Index.tsx:26-31 | A failed creation leaves the dialog open, but with its form already emptied. |
| IndexPage.CreateStoresNameAndDescription | src/pages/Index.tsx:26-31 | A successful creation closes the dialog and puts the project first. Only the trimmed name and description reach the store. |
| IndexPage.EditDialogClosesEvenOnFailure | src/pages/Index.tsx:38-44 | The edit dialog closes itself on submit, so a failed update also ends with it closed. A failed update keeps the list. |
| ChatInterface.SendDisabled | src/components/TranscriptChatInterface.tsx:170 | Sending is disabled exactly for a blank message or while sending. |
| ChatInterface.KeySends | src/components/TranscriptChatInterface.tsx:36-41 | A key press sends exactly on Enter without Shift. |
| ChatInterface.HandleSend | src/components/TranscriptChatInterface.tsx:27-34 | A send is refused exactly when disabled. Otherwise the trimmed message is sent, and the box is cleared exactly when the hook returns true. |
| ChatInterface.SentQuestionIsClean | src/components/TranscriptChatInterface.tsx:28-30 | A sent question is never blank or padded. |
| ChatInterface.FailedSendCanRetry | src/components/TranscriptChatInterface.tsx:30-33 | A failed send keeps the message, and the next attempt is enabled. |
| ContextInput.Initial | src/components/ProjectContextInput.tsx:15-16 | The box starts with the given context, or empty. |
| ContextInput.HandleSave | src/components/ProjectContextInput.tsx:19-26 | The trimmed text is saved through the hook. The box is cleared exactly on success, and saving is on only for the call. |
| ContextInput.BlankSaveAppendsSeparator | src/components/ProjectContextInput.tsx:19-26 | With no blank check, saving a blank box onto a context appends a bare separator. |
| ContextInput.SavedTextEndsWithInput | src/components/ProjectContextInput.tsx:21 | After a save the stored context keeps the old context as a prefix and ends with the trimmed input. |

## Left out

- CORS preflight handling, response headers, `console` logging, toasts, React rendering markup, icons and scrolling are left out. None of them affect any value the model states.
- The prompt text sent to the model is left out. Only the corpus embedded in it is modelled, along with the fact that the model is called.
- The model's generation settings and the endpoint URL are left out; they are constants passed to a foreign service.
- The HTML bodies of the auth emails are fixed markup; only subject and link are modelled.
- Timestamps are left out: `created_at`, `updated_at`, `new Date()`. So is the generated id `Date.now() + Math.random()`, which the caller supplies instead. These are clock and randomness.
- The store's ordering by `created_at` is taken as given: the rows arrive in the order the store returns them.
- The `transcript_count` of a project returned by create or update is whatever the store returns, and no flattening happens there. The table schema is not part of this model.
- `cleanup-quote`, `useAnalysisResults`, `AnalysisResults.tsx`, `ProjectCard`, `ProjectContextDisplay` and `Auth.tsx` are context outside the core and are not part of this model.
- ChatHandler.Handle: a network exception thrown by the call to the model endpoint is not a case of the reply datatype. In the source it becomes the 500 "Internal server error" reply.
- AnalyzeHandler.Analyze: likewise, a thrown network error is not modelled. In the source it becomes a 500 reply carrying that error's message.
- ChatHandler.Handle: the message of a body that is not JSON, and of a callback TypeError, is fixed to the catch block's "Internal server error". That is exactly what the source returns, so nothing is lost; the engine's own TypeError text is not modelled.
- AnalyzeHandler.Analyze: the engine's messages for an unreadable request body, an unreadable model reply, a null transcript element and a missing first part are parameters, not derived text.
- AuthEmail.Handle: the engine's message for an unreadable body is a parameter. The request fields are taken as strings, so a non-string `type` or `email` interpolated into a message or address is not modelled.
- AnalysisView.BodyError: a truthy `error` that is not a string is rendered by a `stringify` parameter. JavaScript's `String()` of arbitrary JSON is not modelled.
- AnalysisView.BodyError: the TypeError message for `null` data is fixed to the V8 wording "Cannot read properties of null (reading 'error')". Other engines word it differently.
- AnalyzeHandler.Analyze: the rendering of a non-null element's `filename` and truthy `content` is supplied as text, so JavaScript's string conversion of numbers and objects is not modelled. A truthy `content` that renders as `""` (an empty array) is treated like a falsy one.
- AuthEmail.Handle: an error the mail client reports by returning instead of throwing is modelled as a return without a message id, which is still a 200 reply. This matches the source, which never inspects the returned error.
- TranscriptsHook.SizeTenths: computed in exact integer arithmetic rather than IEEE doubles. Lengths count characters rather than UTF-16 code units.
- FileUpload.SizeTenthsMb: the same exact-arithmetic simplification applies.
- AnalysisView.ConfidenceColor: confidences are exact reals, so NaN (which the source colours red) is not modelled.
- AnalysisView.ConfidencePercent: the same applies to the floating-point product confidence·100.
- Text.ToLower: only ASCII letters are lowered. For the lower-case needles compared here ("jamie", "horton", "high", "medium", "low") this gives the same answers as full Unicode lower-casing, because no non-ASCII character lowers to a sequence that creates a new match.
- ProjectsHook.Fetch: the sign-in lookup throwing is folded into the store-error case, which likewise keeps the list.
- Project deletion as a stat change on the dashboard is not restated; it follows from ProjectsHook.Delete.

=== FILE: analysis_view.dfy ===
/** `AIAnalysisResults`: runs the analysis function over the project's
    transcripts and chooses what to show. */
module AnalysisView {
  import opened Wrappers
  import opened Json
  import Text

  const Green := "bg-green-100 text-green-800"
  const Yellow := "bg-yellow-100 text-yellow-800"
  const Red := "bg-red-100 text-red-800"
  const Gray := "bg-gray-100 text-gray-800"

  const NoTranscriptsMessage := "No transcripts available for analysis"

  /** The message of the TypeError thrown when the function's data is
      `null` and its `error` property is read. */
  const NullDataMessage := "Cannot read properties of null (reading 'error')"

  /** Badge colour of a theme's confidence: green from 0.9, yellow from
      0.8, red below. */
  function ConfidenceColor(confidence: real): (c: string)
    ensures c == Green <==> confidence >= 0.9
    ensures c == Yellow <==> 0.8 <= confidence < 0.9
    ensures c == Red <==> confidence < 0.8
  {
    if confidence >= 0.9 then Green else if confidence >= 0.8 then Yellow else Red
  }

  /** The confidence shown as a whole percentage, rounded half up. */
  function ConfidencePercent(confidence: real): (p: int)
    ensures (p as real) - 0.5 <= confidence * 100.0 < (p as real) + 0.5
  {
    (confidence * 100.0 + 0.5).Floor
  }

  /** Badge colour of a disagreement's intensity, compared without regard
      to case: high is red, medium yellow, low green, anything else gray. */
  function IntensityColor(intensity: string): (c: string)
    ensures c == Red <==> Text.ToLower(intensity) == "high"
    ensures c == Yellow <==> Text.ToLower(intensity) == "medium"
    ensures c == Green <==> Text.ToLower(intensity) == "low"
    ensures c == Gray <==> Text.ToLower(intensity) !in {"high", "medium", "low"}
  {
    var key := Text.ToLower(intensity);
    if key == "high" then Red else if key == "medium" then Yellow else if key == "low" then Green else Gray
  }

  /** Lower-casing twice is lower-casing once. */
  lemma ToLowerIdempotent(s: string)
    ensures Text.ToLower(Text.ToLower(s)) == Text.ToLower(s)
  {
  }

  /** The colour depends on the intensity only up to case. */
  lemma IntensityColorIgnoresCase(intensity: string)
    ensures IntensityColor(Text.ToLower(intensity)) == IntensityColor(intensity)
    ensures IntensityColor("HIGH") == Red && IntensityColor("Medium") == Yellow
  {
    ToLowerIdempotent(intensity);
    assert Text.ToLower("HIGH") == "high";
    assert Text.ToLower("Medium") == "medium";
  }

  /** `participants?.length || 0`. */
  function ParticipantCount(participants: Option<seq<string>>): (n: nat)
    ensures participants.None? ==> n == 0
    ensures participants.Some? ==> n == |participants.value|
  {
    if participants.Some? then |participants.value| else 0
  }

  datatype ViewState = ViewState(analysis: Option<Json>, loading: bool, error: Option<string>)

  const Initial := ViewState(None, false, None)

  /** What the analysis function gives back: a failure of the call itself,
      or the data it returned. */
  datatype AnalysisAnswer = InvokeFailed(message: string) | Returned(data: Json)

  /** The error a returned body carries, if any: a TypeError when the data
      is `null`, the body's truthy `error` value otherwise. A non-string
      error value is rendered by `stringify`. */
  function BodyError(data: Json, stringify: Json -> string): (r: Option<string>)
    ensures data.JNull? ==> r == Some(NullDataMessage)
    ensures data.JObj? && "error" in data.fields && data.fields["error"].JStr? && data.fields["error"].s != "" ==>
              r == Some(data.fields["error"].s)
    ensures r.None? <==> !data.JNull? && !(data.JObj? && "error" in data.fields && Truthy(data.fields["error"]))
  {
    match Prop(data, "error")
    case Err => Some(NullDataMessage)
    case Ok(e) =>
      if e.Some? && Truthy(e.value) then
        Some(if e.value.JStr? then e.value.s else stringify(e.value))
      else None
  }

  /** A `runAnalysis` call: the state while the call is out (none when the
      guard stops it), the state after, and whether the function ran. */
  datatype RunTrace = RunTrace(during: Option<ViewState>, after: ViewState, invoked: bool)

  predicate Succeeded(answer: AnalysisAnswer, stringify: Json -> string) {
    answer.Returned? && BodyError(answer.data, stringify).None?
  }

  /** `runAnalysis`: with no transcripts only the error is set; otherwise
      the function runs, a success replaces the analysis and any failure
      sets the error and keeps the previous analysis. */
  function RunAnalysis(s: ViewState, transcriptCount: nat, answer: AnalysisAnswer, stringify: Json -> string): (r: RunTrace)
    ensures r.invoked <==> transcriptCount > 0
    ensures transcriptCount == 0 ==> r.during.None? && r.after == s.(error := Some(NoTranscriptsMessage))
    ensures transcriptCount > 0 ==> r.during == Some(s.(loading := true, error := None)) && !r.after.loading
    ensures transcriptCount > 0 && Succeeded(answer, stringify) ==>
              r.after.analysis == Some(answer.data) && r.after.error.None?
    ensures transcriptCount > 0 && !Succeeded(answer, stringify) ==>
              r.after.analysis == s.analysis && r.after.error.Some?
    ensures transcriptCount > 0 && answer.InvokeFailed? ==> r.after.error == Some(answer.message)
    ensures transcriptCount > 0 && answer.Returned? ==> r.after.error == BodyError(answer.data, stringify)
  {
    if transcriptCount == 0 then RunTrace(None, s.(error := Some(NoTranscriptsMessage)), false)
    else
      var during := s.(loading := true, error := None);
      match answer
      case InvokeFailed(message) => RunTrace(Some(during), during.(error := Some(message), loading := false), true)
      case Returned(data) =>
        match BodyError(data, stringify)
        case Some(message) => RunTrace(Some(during), during.(error := Some(message), loading := false), true)
        case None => RunTrace(Some(during), during.(analysis := Some(data), loading := false), true)
  }

  datatype Panel = LoadingPanel | FailurePanel(message: string) | ReadyPanel | ResultsPanel(analysis: Json)

  /** `analysis` is truthy: a stored value such as `false` or `0` counts
      as no analysis at all. */
  predicate HasAnalysis(s: ViewState) {
    s.analysis.Some? && Truthy(s.analysis.value)
  }

  /** What the component renders: the spinner while loading, the failure
      card only when there is no analysis to show, the start card before
      any analysis, the results otherwise. */
  function PanelOf(s: ViewState): (p: Panel)
    ensures p.LoadingPanel? <==> s.loading
    ensures p.FailurePanel? <==> !s.loading && !HasAnalysis(s) && s.error.Some? && s.error.value != ""
    ensures p.FailurePanel? ==> p.message == s.error.value
    ensures p.ReadyPanel? <==> !s.loading && !HasAnalysis(s) && (s.error.None? || s.error.value == "")
    ensures p.ResultsPanel? <==> !s.loading && HasAnalysis(s)
    ensures p.ResultsPanel? ==> p.analysis == s.analysis.value
  {
    if s.loading then LoadingPanel
    else if s.error.Some? && s.error.value != "" && !HasAnalysis(s) then FailurePanel(s.error.value)
    else if !HasAnalysis(s) then ReadyPanel
    else ResultsPanel(s.analysis.value)
  }

  /** A failed re-analysis leaves the earlier results on screen; the error
      is recorded but not shown. */
  lemma FailedRerunKeepsResults(s: ViewState, transcriptCount: nat, answer: AnalysisAnswer, stringify: Json -> string)
    requires HasAnalysis(s) && !s.loading
    requires !Succeeded(answer, stringify)
    ensures PanelOf(RunAnalysis(s, transcriptCount, answer, stringify).after) == ResultsPanel(s.analysis.value)
  {
  }

  /** Pressing start with no transcripts shows the failure card with the
      fixed message. */
  lemma EmptyProjectShowsMessage(s: ViewState, answer: AnalysisAnswer, stringify: Json -> string)
    requires !HasAnalysis(s) && !s.loading
    ensures PanelOf(RunAnalysis(s, 0, answer, stringify).after) == FailurePanel(NoTranscriptsMessage)
  {
  }

  /** A function that returns a falsy value without an error is stored as
      a success, yet the component still shows the start card. */
  lemma FalsyDataShowsStartCard(transcriptCount: nat, data: Json, stringify: Json -> string)
    requires transcriptCount > 0 && !Truthy(data) && !data.JNull?
    ensures RunAnalysis(Initial, transcriptCount, Returned(data), stringify).after.analysis == Some(data)
    ensures PanelOf(RunAnalysis(Initial, transcriptCount, Returned(data), stringify).after) == ReadyPanel
  {
  }
}

=== FILE: analyze_handler.dfy ===
/** The `analyze-transcripts` edge function: check the API key and the
    transcripts, assemble the corpus (with a placeholder for missing
    content), ask the model once, and return the JSON span of its reply as
    parsed, with no filtering and no shape check. Every error becomes a
    500 reply carrying the error's message. */
module AnalyzeHandler {
  import opened Wrappers
  import opened Json
  import Text
  import Corpus
  import Lists
  import Extraction
  import ModelReply

  const NoContentPlaceholder := "No content available"

  /** One element of the request's `transcripts` array. */
  datatype TranscriptItem =
    /** a non-null element: `filename` is `${t.filename}` as JavaScript
        renders it (`"undefined"` when absent), `content` the rendered
        `t.content` when that is truthy and `""` otherwise */
    | Item(filename: string, content: string)
    /** a `null` element: reading `t.filename` throws a TypeError with the
        engine's message */
    | NullItem(typeErrorMessage: string)

  /** The request's `transcripts` field. */
  datatype TranscriptsField =
    /** missing, or a falsy value */
    | Absent
    /** a truthy value that is not an array */
    | NotAnArray
    | Items(items: seq<TranscriptItem>)

  /** The errors the function throws, in the order it can throw them. */
  datatype AnalyzeError =
    /** `await req.json()` threw (the body is not JSON), or destructuring
        `transcripts` out of a `null` body threw: the engine's message */
    | BodyUnreadable(message: string)
    | MissingApiKey
    | NoTranscripts
    /** the `map` over the transcripts reached a `null` element */
    | ItemTypeError(message: string)
    | ModelHttpError(status: nat, body: string)
    /** `response.json()` threw, or `data.candidates` was read of `null` */
    | EnvelopeUnreadable(message: string)
    | InvalidEnvelope
    | EnvelopeTypeError(message: string)
    | UnparsableReply

  /** `error.message` of each thrown error. */
  function Message(e: AnalyzeError): string {
    match e
    case BodyUnreadable(m) => m
    case MissingApiKey => "GEMINI_API_KEY not found"
    case NoTranscripts => "No transcripts provided"
    case ItemTypeError(m) => m
    case ModelHttpError(status, body) => "Gemini API error: " + Text.NatToString(status) + " " + body
    case EnvelopeUnreadable(m) => m
    case InvalidEnvelope => "Invalid response from Gemini API"
    case EnvelopeTypeError(m) => m
    case UnparsableReply => "Failed to parse AI response as JSON"
  }

  /** The outcome and the corpus sent to the model, if the model was
      called. */
  datatype AnalyzeRun = AnalyzeRun(result: Result, corpusSent: Option<string>)
  datatype Result = Analysis(value: Json) | Failure(error: AnalyzeError)

  /** `t.content || 'No content available'`. */
  function ContentOrPlaceholder(content: string): (c: string)
    ensures c != ""
    ensures content != "" ==> c == content
  {
    if content == "" then NoContentPlaceholder else content
  }

  /** Every element is non-null, so the `map` runs to the end. */
  predicate AllItems(items: seq<TranscriptItem>) {
    forall i :: 0 <= i < |items| ==> items[i].Item?
  }

  /** The message of the TypeError the `map` throws: the one of the first
      `null` element, if there is one. */
  function FirstNullItem(items: seq<TranscriptItem>): (m: Option<string>)
    ensures m.None? <==> AllItems(items)
    ensures m.Some? ==> exists i :: 0 <= i < |items| && items[i] == NullItem(m.value) && AllItems(items[..i])
    decreases |items|
  {
    if |items| == 0 then None
    else if items[0].NullItem? then
      assert AllItems(items[..0]);
      Some(items[0].typeErrorMessage)
    else
      var m := FirstNullItem(items[1..]);
      FirstNullShift(items, m);
      m
  }

  /** A first `null` element of the tail, behind a non-null head, is the
      first `null` element of the whole list. */
  lemma FirstNullShift(items: seq<TranscriptItem>, m: Option<string>)
    requires |items| > 0 && items[0].Item?
    requires m.Some? ==> exists i :: 0 <= i < |items[1..]| && items[1..][i] == NullItem(m.value) && AllItems(items[1..][..i])
    ensures m.Some? ==> exists i :: 0 <= i < |items| && items[i] == NullItem(m.value) && AllItems(items[..i])
  {
    if m.Some? {
      var i :| 0 <= i < |items[1..]| && items[1..][i] == NullItem(m.value) && AllItems(items[1..][..i]);
      assert items[..i + 1] == [items[0]] + items[1..][..i];
      assert items[i + 1] == NullItem(m.value);
    }
  }

  function AnalysisBlocks(items: seq<TranscriptItem>): (bs: seq<string>)
    requires AllItems(items)
    ensures |bs| == |items|
  {
    seq(|items|, i requires 0 <= i < |items| =>
      Corpus.Block(items[i].filename, ContentOrPlaceholder(items[i].content)))
  }

  function AnalysisCorpus(items: seq<TranscriptItem>): string
    requires AllItems(items)
  {
    Corpus.Assemble(AnalysisBlocks(items))
  }

  /** Transcript i's block sits at its offset, in input order, with its own
      content or the placeholder. */
  lemma CorpusInInputOrder(items: seq<TranscriptItem>, i: nat)
    requires AllItems(items) && i < |items|
    ensures var o := Lists.Offset(AnalysisBlocks(items), Corpus.BlockSeparator, i);
            var b := Corpus.Block(items[i].filename, ContentOrPlaceholder(items[i].content));
            o + |b| <= |AnalysisCorpus(items)| && AnalysisCorpus(items)[o..o + |b|] == b
  {
    var bs := AnalysisBlocks(items);
    assert bs[i] == Corpus.Block(items[i].filename, ContentOrPlaceholder(items[i].content));
    Corpus.AssembleLayout(bs, i);
  }

  predicate HasTranscripts(t: TranscriptsField) {
    t.Items? && |t.items| > 0
  }

  /** The try block up to the point where the reply becomes a value or an
      error. `bodyError` is the engine's message when reading the request
      body throws; `parse` stands for `JSON.parse`. */
  function Analyze(bodyError: Option<string>, apiKeyPresent: bool, transcripts: TranscriptsField,
                   reply: ModelReply.Reply, parse: string -> Option<Json>): (r: AnalyzeRun)
    ensures bodyError.Some? ==> r == AnalyzeRun(Failure(BodyUnreadable(bodyError.value)), None)
    ensures bodyError.None? && !apiKeyPresent ==> r == AnalyzeRun(Failure(MissingApiKey), None)
    ensures bodyError.None? && apiKeyPresent && !HasTranscripts(transcripts) ==>
              r == AnalyzeRun(Failure(NoTranscripts), None)
    ensures bodyError.None? && apiKeyPresent && HasTranscripts(transcripts) && FirstNullItem(transcripts.items).Some? ==>
              r == AnalyzeRun(Failure(ItemTypeError(FirstNullItem(transcripts.items).value)), None)
    ensures r.corpusSent.Some? <==>
              bodyError.None? && apiKeyPresent && HasTranscripts(transcripts) && AllItems(transcripts.items)
    ensures r.corpusSent.Some? ==> r.corpusSent.value == AnalysisCorpus(transcripts.items)
    ensures r.corpusSent.Some? && reply.Unreadable? ==> r.result == Failure(EnvelopeUnreadable(reply.message))
    ensures r.corpusSent.Some? && reply.HttpFailure? ==>
              r.result == Failure(ModelHttpError(reply.status, reply.body))
    ensures r.corpusSent.Some? && reply == ModelReply.Delivered(ModelReply.NoContent) ==>
              r.result == Failure(InvalidEnvelope)
    ensures r.corpusSent.Some? && reply.Delivered? && reply.content.NoFirstPart? ==>
              r.result == Failure(EnvelopeTypeError(reply.content.typeErrorMessage))
    ensures r.corpusSent.Some? && reply.Delivered? && reply.content.FirstPart? ==>
              r.result == (match ModelReply.ParsedText(reply.content.text, parse)
                           case Some(v) => Analysis(v)
                           case None => Failure(UnparsableReply))
  {
    if bodyError.Some? then AnalyzeRun(Failure(BodyUnreadable(bodyError.value)), None)
    else if !apiKeyPresent then AnalyzeRun(Failure(MissingApiKey), None)
    else if !HasTranscripts(transcripts) then AnalyzeRun(Failure(NoTranscripts), None)
    else if FirstNullItem(transcripts.items).Some? then
      AnalyzeRun(Failure(ItemTypeError(FirstNullItem(transcripts.items).value)), None)
    else
      var corpus := Some(AnalysisCorpus(transcripts.items));
      match reply
      case HttpFailure(status, body) => AnalyzeRun(Failure(ModelHttpError(status, body)), corpus)
      case Unreadable(m) => AnalyzeRun(Failure(EnvelopeUnreadable(m)), corpus)
      case Delivered(NoContent) => AnalyzeRun(Failure(InvalidEnvelope), corpus)
      case Delivered(NoFirstPart(m)) => AnalyzeRun(Failure(EnvelopeTypeError(m)), corpus)
      case Delivered(FirstPart(text)) =>
        if text.Some? && text.value.JStr? then
          match Extraction.ExtractSpan(text.value.s)
          case None => AnalyzeRun(Failure(UnparsableReply), corpus)
          case Some(span) =>
            match parse(span)
            case None => AnalyzeRun(Failure(UnparsableReply), corpus)
            case Some(v) => AnalyzeRun(Analysis(v), corpus)
        else AnalyzeRun(Failure(UnparsableReply), corpus)
  }

  /** The catch block: a value goes out unchanged with status 200, every
      error as status 500 with body `{ error: message }`. */
  function Respond(result: Result): (reply: HttpReply)
    ensures reply.status == 200 || reply.status == 500
    ensures reply.status == 500 <==> result.Failure?
    ensures result.Failure? ==> reply.body == ErrorBody(Message(result.error))
    ensures result.Analysis? ==> reply.body == result.value
  {
    match result
    case Analysis(v) => HttpReply(200, v)
    case Failure(e) => HttpReply(500, ErrorBody(Message(e)))
  }

  /** One request: the reply is 200 with the analysis exactly when one
      was produced, and every failure is a 500 carrying its message. */
  function Handle(bodyError: Option<string>, apiKeyPresent: bool, transcripts: TranscriptsField,
                  reply: ModelReply.Reply, parse: string -> Option<Json>): (h: HttpReply)
    ensures var run := Analyze(bodyError, apiKeyPresent, transcripts, reply, parse);
            && (h.status == 200 <==> run.result.Analysis?)
            && (run.result.Analysis? ==> h.body == run.result.value)
            && (run.result.Failure? ==> h == HttpReply(500, ErrorBody(Message(run.result.error))))
  {
    Respond(Analyze(bodyError, apiKeyPresent, transcripts, reply, parse).result)
  }

  /** A body that cannot be read fails with the engine's message before
      the key is looked at. */
  lemma BodyReadFirst(message: string, apiKeyPresent: bool, transcripts: TranscriptsField,
                      reply: ModelReply.Reply, parse: string -> Option<Json>)
    ensures Handle(Some(message), apiKeyPresent, transcripts, reply, parse) == HttpReply(500, ErrorBody(message))
  {
  }

  /** Once the body is read, a missing key is reported before the
      transcripts are looked at. */
  lemma ApiKeyCheckedFirst(transcripts: TranscriptsField, reply: ModelReply.Reply, parse: string -> Option<Json>)
    ensures Handle(None, false, transcripts, reply, parse) == HttpReply(500, ErrorBody("GEMINI_API_KEY not found"))
  {
  }

  /** A `null` transcript stops the request before the model is called,
      with the TypeError of the first such element. */
  lemma NullItemStopsBeforeModel(items: seq<TranscriptItem>, reply: ModelReply.Reply, parse: string -> Option<Json>)
    requires |items| > 0 && !AllItems(items)
    ensures Analyze(None, true, Items(items), reply, parse).corpusSent.None?
    ensures Handle(None, true, Items(items), reply, parse)
         == HttpReply(500, ErrorBody(FirstNullItem(items).value))
  {
  }

  /** An envelope without `candidates[0].content` is rejected with its
      own message, and a failed model call carries status and body text. */
  lemma EnvelopeErrors(items: seq<TranscriptItem>, status: nat, body: string, parse: string -> Option<Json>)
    requires |items| > 0 && AllItems(items)
    ensures Handle(None, true, Items(items), ModelReply.Delivered(ModelReply.NoContent), parse)
         == HttpReply(500, ErrorBody("Invalid response from Gemini API"))
    ensures Handle(None, true, Items(items), ModelReply.HttpFailure(status, body), parse)
         == HttpReply(500, ErrorBody("Gemini API error: " + Text.NatToString(status) + " " + body))
  {
  }

  /** "No brace span", "span does not parse" and "text is not a string"
      are one and the same error. */
  lemma ParseFailuresCollapse(items: seq<TranscriptItem>, text: Option<Json>, parse: string -> Option<Json>)
    requires |items| > 0 && AllItems(items)
    requires ModelReply.ParsedText(text, parse).None?
    ensures Handle(None, true, Items(items), ModelReply.Delivered(ModelReply.FirstPart(text)), parse)
         == HttpReply(500, ErrorBody("Failed to parse AI response as JSON"))
  {
  }

  /** A reply whose object is the whole text comes back exactly as the
      parser produced it: no field is checked and no speaker filtered. */
  lemma CleanReplyReturnedUnchanged(items: seq<TranscriptItem>, text: string, parse: string -> Option<Json>, v: Json)
    requires |items| > 0 && AllItems(items)
    requires |text| >= 2 && text[0] == '{' && text[|text| - 1] == '}'
    requires parse(text) == Some(v)
    ensures Handle(None, true, Items(items), ModelReply.Delivered(ModelReply.FirstPart(Some(JStr(text)))), parse)
         == HttpReply(200, v)
  {
    Extraction.WholeObjectIsItsOwnSpan(text);
    assert ModelReply.ParsedText(Some(JStr(text)), parse) == Some(v);
  }
}

=== FILE: auth_email.dfy ===
/** The `send-auth-email` edge function: pick a subject and a link for the
    requested email type, send the email, and report the message id. */
module AuthEmail {
  import opened Wrappers
  import opened Json
  import Text

  const DefaultBaseUrl := "https://thought-weaver-insights.lovable.app"
  const Sender := "TranscriptIQ <no-reply@castfromclay.co.uk>"
  const SignupSubject := "Confirm your email - TranscriptIQ"
  const RecoverySubject := "Reset your password - TranscriptIQ"
  const MagicLinkSubject := "Sign in to TranscriptIQ"

  /** `redirectTo || default`. */
  function BaseUrl(redirectTo: Option<string>): (url: string)
    ensures redirectTo.Some? && redirectTo.value != "" ==> url == redirectTo.value
    ensures redirectTo.None? || redirectTo.value == "" ==> url == DefaultBaseUrl
  {
    if redirectTo.Some? && redirectTo.value != "" then redirectTo.value else DefaultBaseUrl
  }

  /** `${token}`: an absent token is interpolated as "undefined". */
  function TokenText(token: Option<string>): string {
    token.GetOr("undefined")
  }

  /** The subject and the button link of one email; the rest of the HTML
      is fixed markup. */
  datatype Template = Template(subject: string, link: string)

  /** The `switch (type)`: three supported types, everything else (the
      declared `invite` and `email_change` included) unsupported. */
  function TemplateFor(kind: string, baseUrl: string, token: string): (t: Option<Template>)
    ensures t.Some? <==> kind in {"signup", "recovery", "magic_link"}
    ensures kind == "signup" ==>
              t == Some(Template(SignupSubject, baseUrl + "/auth/confirm?token=" + token + "&type=signup"))
    ensures kind == "recovery" ==>
              t == Some(Template(RecoverySubject, baseUrl + "/auth/reset-password?token=" + token))
    ensures kind == "magic_link" ==>
              t == Some(Template(MagicLinkSubject, baseUrl + "/auth/confirm?token=" + token + "&type=magiclink"))
  {
    match kind
    case "signup" => Some(Template(SignupSubject, baseUrl + "/auth/confirm?token=" + token + "&type=signup"))
    case "recovery" => Some(Template(RecoverySubject, baseUrl + "/auth/reset-password?token=" + token))
    case "magic_link" => Some(Template(MagicLinkSubject, baseUrl + "/auth/confirm?token=" + token + "&type=magiclink"))
    case _ => None
  }

  /** The three supported types send three different subjects. */
  lemma SubjectsDistinct(baseUrl: string, token: string)
    ensures TemplateFor("signup", baseUrl, token).value.subject != TemplateFor("recovery", baseUrl, token).value.subject
    ensures TemplateFor("signup", baseUrl, token).value.subject != TemplateFor("magic_link", baseUrl, token).value.subject
    ensures TemplateFor("recovery", baseUrl, token).value.subject != TemplateFor("magic_link", baseUrl, token).value.subject
  {
    assert SignupSubject[0] != RecoverySubject[0];
    assert SignupSubject[0] != MagicLinkSubject[0];
    assert RecoverySubject[0] != MagicLinkSubject[0];
  }

  /** Every link starts with the base URL, so the redirect target decides
      where the user lands. */
  lemma LinksStartWithBaseUrl(kind: string, baseUrl: string, token: string)
    requires TemplateFor(kind, baseUrl, token).Some?
    ensures |baseUrl| <= |TemplateFor(kind, baseUrl, token).value.link|
    ensures TemplateFor(kind, baseUrl, token).value.link[..|baseUrl|] == baseUrl
  {
  }

  datatype Email = Email(from: string, to: seq<string>, subject: string, link: string)

  /** The mail client's answer: it returned (with a message id or without
      one), or it threw. */
  datatype SendAnswer = Returned(messageId: Option<string>) | Threw(message: string)

  datatype EmailRun = EmailRun(reply: HttpReply, sent: Option<Email>)

  /** One request. `bodyError` is the engine's message when reading the
      request body throws (a body that is not JSON, or a `null` body that
      cannot be destructured); `send` is the mail client's answer. */
  function Handle(bodyError: Option<string>, email: string, kind: string, token: Option<string>,
                  redirectTo: Option<string>, send: SendAnswer): (r: EmailRun)
    ensures bodyError.Some? ==> r == EmailRun(HttpReply(500, ErrorBody(bodyError.value)), None)
    ensures r.sent.Some? <==> bodyError.None? && kind in {"signup", "recovery", "magic_link"}
    ensures r.sent.Some? ==>
              var t := TemplateFor(kind, BaseUrl(redirectTo), TokenText(token)).value;
              r.sent.value == Email(Sender, [email], t.subject, t.link)
    ensures bodyError.None? && r.sent.None? ==> r.reply == HttpReply(500, ErrorBody("Unsupported email type: " + kind))
    ensures r.sent.Some? && send.Threw? ==> r.reply == HttpReply(500, ErrorBody(send.message))
    ensures r.reply.status == 200 <==> r.sent.Some? && send.Returned?
    ensures r.reply.status == 200 ==>
              && r.reply.body.JObj? && "success" in r.reply.body.fields
              && r.reply.body.fields["success"] == JBool(true)
              && ("messageId" in r.reply.body.fields <==> send.messageId.Some?)
              && (send.messageId.Some? ==> r.reply.body.fields["messageId"] == JStr(send.messageId.value))
  {
    if bodyError.Some? then EmailRun(HttpReply(500, ErrorBody(bodyError.value)), None)
    else
      match TemplateFor(kind, BaseUrl(redirectTo), TokenText(token))
      case None => EmailRun(HttpReply(500, ErrorBody("Unsupported email type: " + kind)), None)
      case Some(t) =>
        var mail := Some(Email(Sender, [email], t.subject, t.link));
        match send
        case Threw(m) => EmailRun(HttpReply(500, ErrorBody(m)), mail)
        case Returned(id) =>
          var body := if id.Some? then map["success" := JBool(true), "messageId" := JStr(id.value)]
                      else map["success" := JBool(true)];
          EmailRun(HttpReply(200, JObj(body)), mail)
  }

  /** The two declared but unhandled types fail without sending. */
  lemma InviteAndEmailChangeUnsupported(email: string, token: Option<string>, redirectTo: Option<string>, send: SendAnswer)
    ensures Handle(None, email, "invite", token, redirectTo, send).reply.status == 500
    ensures Handle(None, email, "invite", token, redirectTo, send).sent.None?
    ensures Handle(None, email, "email_change", token, redirectTo, send).reply.status == 500
    ensures Handle(None, email, "email_change", token, redirectTo, send).sent.None?
  {
  }

  /** Without a redirect target a signup link points at the default host. */
  lemma SignupLinkDefault(email: string, token: string, id: string)
    ensures Handle(None, email, "signup", Some(token), None, Returned(Some(id))).sent.value.link
         == DefaultBaseUrl + "/auth/confirm?token=" + token + "&type=signup"
  {
  }
}

=== FILE: chat_conversations_hook.dfy ===
/** `useChatConversations`: a project's chat history, oldest first, and
    the sending flag while a question is out. */
module ChatConversationsHook {
  import opened Wrappers
  import opened Json

  /** A conversation row as the store returns it: the quotes column is
      arbitrary JSON. */
  datatype ConversationRow = ConversationRow(
    id: string, projectId: string, userMessage: string, aiResponse: string,
    responseQuotes: Json, createdAt: string, sessionId: Option<string>)

  /** A conversation as the hook holds it: the quotes are always a list. */
  datatype Conversation = Conversation(
    id: string, projectId: string, userMessage: string, aiResponse: string,
    responseQuotes: seq<Json>, createdAt: string, sessionId: Option<string>)

  /** An array of quotes is kept as it is; anything else becomes empty. */
  function NormaliseQuotes(quotes: Json): (r: seq<Json>)
    ensures quotes.JArr? ==> r == quotes.items
    ensures !quotes.JArr? ==> r == []
  {
    if quotes.JArr? then quotes.items else []
  }

  function Normalise(row: ConversationRow): (c: Conversation)
    ensures c.responseQuotes == NormaliseQuotes(row.responseQuotes)
    ensures c.id == row.id && c.userMessage == row.userMessage && c.aiResponse == row.aiResponse
  {
    Conversation(row.id, row.projectId, row.userMessage, row.aiResponse,
                 NormaliseQuotes(row.responseQuotes), row.createdAt, row.sessionId)
  }

  /** Normalising the quotes of an already normalised conversation changes
      nothing. */
  lemma NormaliseQuotesIdempotent(quotes: Json)
    ensures NormaliseQuotes(JArr(NormaliseQuotes(quotes))) == NormaliseQuotes(quotes)
  {
  }

  datatype ChatState = ChatState(conversations: seq<Conversation>, loading: bool, sending: bool)

  const Initial := ChatState([], true, false)

  /** `fetchConversations`: the rows in store order, normalised; a missing
      answer is no rows; a store error keeps the list. */
  function Fetch(s: ChatState, answer: Outcome<Option<seq<ConversationRow>>>): (r: ChatState)
    ensures !r.loading && r.sending == s.sending
    ensures answer.Err? ==> r.conversations == s.conversations
    ensures answer.Ok? ==>
              var rows := answer.value.GetOr([]);
              |r.conversations| == |rows|
              && forall i :: 0 <= i < |rows| ==> r.conversations[i] == Normalise(rows[i])
  {
    match answer
    case Err => s.(loading := false)
    case Ok(rows) =>
      var rs := rows.GetOr([]);
      s.(conversations := seq(|rs|, i requires 0 <= i < |rs| => Normalise(rs[i])), loading := false)
  }

  /** The request `sendMessage` makes of the chat function. */
  datatype ChatRequest = ChatRequest(question: string, projectId: string)

  /** A `sendMessage` call: the state while the request is out, the state
      after, the request made, whether history was fetched again, and the
      boolean returned. */
  datatype SendRun = SendRun(during: ChatState, after: ChatState, request: ChatRequest, refetched: bool, returned: bool)

  /** `sendMessage(question)`: the function's failure (reported or thrown)
      returns false without reloading; success reloads the history and
      returns true. Sending is on for the call and off after it. */
  function SendMessage(s: ChatState, projectId: string, question: string,
                       invoke: Outcome<()>, refetch: Outcome<Option<seq<ConversationRow>>>): (r: SendRun)
    ensures r.request == ChatRequest(question, projectId)
    ensures r.during.sending && !r.after.sending
    ensures r.during.conversations == s.conversations
    ensures r.returned <==> invoke.Ok?
    ensures r.refetched <==> invoke.Ok?
    ensures invoke.Err? ==> r.after == s.(sending := false)
    ensures invoke.Ok? ==> r.after == Fetch(s, refetch).(sending := false)
  {
    var during := s.(sending := true);
    if invoke.Err? then SendRun(during, s.(sending := false), ChatRequest(question, projectId), false, false)
    else SendRun(during, Fetch(during, refetch).(sending := false), ChatRequest(question, projectId), true, true)
  }

  /** `clearConversations`: on success the history is empty. */
  function Clear(s: ChatState, ack: Outcome<()>): (r: ChatState)
    ensures ack.Ok? ==> r.conversations == [] && r.loading == s.loading && r.sending == s.sending
    ensures ack.Err? ==> r == s
  {
    if ack.Ok? then s.(conversations := []) else s
  }

  /** Whatever the store held, every conversation in the list after a fetch
      carries a list of quotes that came from its row. */
  lemma FetchedQuotesFromRows(s: ChatState, rows: seq<ConversationRow>, i: nat)
    requires i < |rows|
    ensures i < |Fetch(s, Ok(Some(rows))).conversations|
    ensures var c := Fetch(s, Ok(Some(rows))).conversations[i];
            (rows[i].responseQuotes.JArr? ==> c.responseQuotes == rows[i].responseQuotes.items)
            && (!rows[i].responseQuotes.JArr? ==> c.responseQuotes == [])
  {
  }
}

=== FILE: chat_handler.dfy ===
/** The `chat-with-transcripts` edge function: validate the question,
    assemble the project's transcripts into a corpus, ask the model, cut the
    JSON span out of its reply (falling back to the plain text), drop quotes
    attributed to the interviewer, record the exchange and answer. */
module ChatHandler {
  import opened Wrappers
  import opened Json
  import Corpus
  import Lists
  import Extraction
  import QuoteFilter
  import ModelReply

  const MissingFieldsMessage := "Question and project ID are required"
  const FetchFailedMessage := "Failed to fetch transcripts"
  const NoTranscriptsText := "No transcripts found for this project. Please add some transcripts first."
  const NoApiKeyMessage := "Gemini API key not configured"
  const GenerationFailedMessage := "Failed to generate AI response"
  const NoTextMessage := "No response generated from AI"
  const InternalErrorMessage := "Internal server error"

  /** A row of `transcripts` selected as `filename, content`. */
  datatype TranscriptRow = TranscriptRow(filename: string, content: string)

  /** The row the function inserts into `chat_conversations`; the answer of
      the insert is never inspected. */
  datatype ConversationInsert = ConversationInsert(
    projectId: Json, userMessage: Json, aiResponse: Option<Json>, responseQuotes: Json)

  /** The HTTP reply together with what the function asked of its
      collaborators on the way. */
  datatype ChatRun = ChatRun(
    reply: HttpReply,
    storeQueried: bool,
    corpusSent: Option<string>,
    inserted: Option<ConversationInsert>)

  function TranscriptBlocks(rows: seq<TranscriptRow>): (bs: seq<string>)
    ensures |bs| == |rows|
  {
    seq(|rows|, i requires 0 <= i < |rows| => Corpus.Block(rows[i].filename, rows[i].content))
  }

  function TranscriptCorpus(rows: seq<TranscriptRow>): string {
    Corpus.Assemble(TranscriptBlocks(rows))
  }

  /** The corpus holds one block per fetched row, in fetch order: row i's
      `=== filename ===\ncontent` block sits at its offset, and the corpus
      is the blocks plus n - 1 separators. */
  lemma CorpusInFetchOrder(rows: seq<TranscriptRow>, i: nat)
    requires i < |rows|
    ensures var o := Lists.Offset(TranscriptBlocks(rows), Corpus.BlockSeparator, i);
            var b := Corpus.Block(rows[i].filename, rows[i].content);
            o + |b| <= |TranscriptCorpus(rows)| && TranscriptCorpus(rows)[o..o + |b|] == b
    ensures |TranscriptCorpus(rows)|
            == Lists.TotalLength(TranscriptBlocks(rows)) + (|rows| - 1) * |Corpus.BlockSeparator|
  {
    Corpus.AssembleLayout(TranscriptBlocks(rows), i);
  }

  /** The reply used when the model's text yields no parsed value: the
      text itself, whatever its JSON type, and no quotes. */
  function FallbackAnswer(aiText: Json): Json {
    JObj(map["response" := aiText, "quotes" := JArr([])])
  }

  /** The inner try block: a string text whose brace span parses gives the
      parsed value; no span, a failed parse, and a non-string text (on
      which `match` throws) all give the fallback. */
  function ParseOrFallback(aiText: Json, parse: string -> Option<Json>): (v: Json)
    ensures ModelReply.ParsedText(Some(aiText), parse).Some? ==>
              v == ModelReply.ParsedText(Some(aiText), parse).value
    ensures ModelReply.ParsedText(Some(aiText), parse).None? ==> v == FallbackAnswer(aiText)
  {
    if aiText.JStr? then
      match Extraction.ExtractSpan(aiText.s)
      case None => FallbackAnswer(aiText)
      case Some(span) =>
        match parse(span)
        case None => FallbackAnswer(aiText)
        case Some(v) => v
    else FallbackAnswer(aiText)
  }

  /** `parsedResponse.quotes` is present and truthy. */
  predicate HasQuotes(v: Json) {
    v.JObj? && "quotes" in v.fields && Truthy(v.fields["quotes"])
  }

  /** The quote step: filters `quotes` only when it is truthy, replacing it
      by the surviving quotes and leaving every other field alone; a truthy
      non-array, or a callback that throws, is a TypeError (`Err`). */
  function FilterResponse(parsed: Json): (r: Outcome<Json>)
    ensures HasQuotes(parsed) ==>
              (r.Ok? <==> parsed.fields["quotes"].JArr? && QuoteFilter.FilterQuotes(parsed.fields["quotes"].items).Ok?)
    ensures HasQuotes(parsed) && r.Ok? ==>
              && r.value.JObj? && r.value.fields.Keys == parsed.fields.Keys
              && r.value.fields["quotes"] == JArr(QuoteFilter.FilterQuotes(parsed.fields["quotes"].items).value)
              && (forall k :: k in parsed.fields && k != "quotes" ==> r.value.fields[k] == parsed.fields[k])
    ensures !HasQuotes(parsed) ==> r == (if parsed.JNull? then Err else Ok(parsed))
  {
    match Prop(parsed, "quotes")
    case Err => Err
    case Ok(q) =>
      if q.Some? && Truthy(q.value) then
        if q.value.JArr? then
          match QuoteFilter.FilterQuotes(q.value.items)
          case Err => Err
          case Ok(kept) => Ok(JObj(parsed.fields["quotes" := JArr(kept)]))
        else Err
      else Ok(parsed)
  }

  /** Everything after the model has answered with a truthy text: a
      success is never `null`, since reading `quotes` of `null` throws. */
  function Answer(aiText: Json, parse: string -> Option<Json>): (r: Outcome<Json>)
    ensures r.Ok? ==> !r.value.JNull?
    ensures ModelReply.ParsedText(Some(aiText), parse).None? ==> r == Ok(FallbackAnswer(aiText))
  {
    var parsed := ParseOrFallback(aiText, parse);
    assert parsed == FallbackAnswer(aiText) ==> parsed.fields["quotes" := JArr([])] == parsed.fields;
    FilterResponse(parsed)
  }

  /** `aiText` after the optional chain: present and truthy. */
  predicate Answered(reply: ModelReply.Reply) {
    reply.Delivered? && ModelReply.OptionalText(reply.content).Some?
    && Truthy(ModelReply.OptionalText(reply.content).value)
  }

  /** The row recorded for an answered question: `ai_response` is the
      answer's `response` and `response_quotes` its `quotes`, or `[]` when
      those are falsy or absent. */
  function InsertFor(projectId: Json, question: Json, answer: Json): (row: ConversationInsert)
    requires !answer.JNull?
    ensures row.userMessage == question && row.projectId == projectId
    ensures row.aiResponse == Prop(answer, "response").value
    ensures row.aiResponse.Some? <==> answer.JObj? && "response" in answer.fields
    ensures HasQuotes(answer) ==> row.responseQuotes == answer.fields["quotes"]
    ensures !HasQuotes(answer) ==> row.responseQuotes == JArr([])
  {
    var quotes := Prop(answer, "quotes").value;
    ConversationInsert(
      projectId, question, Prop(answer, "response").value,
      if quotes.Some? && Truthy(quotes.value) then quotes.value else JArr([]))
  }

  function Fail(status: nat, message: string, queried: bool, corpus: Option<string>): ChatRun {
    ChatRun(HttpReply(status, ErrorBody(message)), queried, corpus, None)
  }

  /** A request body with a truthy `question` and a truthy `projectId`. */
  predicate ValidRequest(body: Json) {
    && body.JObj?
    && "question" in body.fields && Truthy(body.fields["question"])
    && "projectId" in body.fields && Truthy(body.fields["projectId"])
  }

  /** One request. `body` is `None` when the request body is not JSON;
      `fetched` is the store's answer to the transcript query, `reply` the
      model endpoint's, `parse` stands for `JSON.parse` and `saved` for the
      insert's answer. The source only logs that answer; it stays a
      parameter so that SaveFailureSwallowed can state that it is
      ignored. */
  function Handle(body: Option<Json>, fetched: Outcome<seq<TranscriptRow>>, apiKeyPresent: bool,
                  reply: ModelReply.Reply, parse: string -> Option<Json>, saved: Outcome<()>): (r: ChatRun)
    ensures r.reply.status in {200, 400, 500}
    ensures body.None? || body.value.JNull? ==> r == Fail(500, InternalErrorMessage, false, None)
    ensures r.reply.status == 400 <==> body.Some? && !body.value.JNull? && !ValidRequest(body.value)
    ensures r.reply.status == 400 ==> r.reply.body == ErrorBody(MissingFieldsMessage)
    ensures r.storeQueried <==> body.Some? && ValidRequest(body.value)
    ensures r.storeQueried && fetched.Err? ==> r.reply == HttpReply(500, ErrorBody(FetchFailedMessage))
    ensures r.storeQueried && fetched == Ok([]) ==>
              r.reply == HttpReply(200, JObj(map["response" := JStr(NoTranscriptsText), "quotes" := JArr([])]))
    ensures r.storeQueried && fetched.Ok? && |fetched.value| > 0 && !apiKeyPresent ==>
              r.reply == HttpReply(500, ErrorBody(NoApiKeyMessage))
    ensures r.corpusSent.Some? <==> r.storeQueried && fetched.Ok? && |fetched.value| > 0 && apiKeyPresent
    ensures r.corpusSent.Some? ==> r.corpusSent.value == TranscriptCorpus(fetched.value)
    ensures r.corpusSent.Some? && reply.HttpFailure? ==>
              r.reply == HttpReply(500, ErrorBody(GenerationFailedMessage))
    ensures r.corpusSent.Some? && reply.Unreadable? ==>
              r.reply == HttpReply(500, ErrorBody(InternalErrorMessage))
    ensures r.corpusSent.Some? && reply.Delivered? && !Answered(reply) ==>
              r.reply == HttpReply(500, ErrorBody(NoTextMessage))
    ensures r.corpusSent.Some? && Answered(reply) ==>
              var answer := Answer(ModelReply.OptionalText(reply.content).value, parse);
              && (answer.Err? ==> r.reply == HttpReply(500, ErrorBody(InternalErrorMessage)))
              && (answer.Ok? ==>
                    && r.reply == HttpReply(200, answer.value)
                    && r.inserted == Some(InsertFor(body.value.fields["projectId"], body.value.fields["question"], answer.value)))
    ensures r.inserted.Some? <==> r.reply.status == 200 && r.corpusSent.Some?
  {
    if body.None? then Fail(500, InternalErrorMessage, false, None)
    else if body.value.JNull? then Fail(500, InternalErrorMessage, false, None)
    else if !ValidRequest(body.value) then Fail(400, MissingFieldsMessage, false, None)
    else
      var question := body.value.fields["question"];
      var projectId := body.value.fields["projectId"];
      match fetched
      case Err => Fail(500, FetchFailedMessage, true, None)
      case Ok(rows) =>
        if |rows| == 0 then
          ChatRun(HttpReply(200, JObj(map["response" := JStr(NoTranscriptsText), "quotes" := JArr([])])), true, None, None)
        else if !apiKeyPresent then Fail(500, NoApiKeyMessage, true, None)
        else
          var corpus := Some(TranscriptCorpus(rows));
          match reply
          case HttpFailure(_, _) => Fail(500, GenerationFailedMessage, true, corpus)
          case Unreadable(_) => Fail(500, InternalErrorMessage, true, corpus)
          case Delivered(content) =>
            var aiText := ModelReply.OptionalText(content);
            if aiText.None? || !Truthy(aiText.value) then Fail(500, NoTextMessage, true, corpus)
            else
              match Answer(aiText.value, parse)
              case Err => Fail(500, InternalErrorMessage, true, corpus)
              case Ok(answer) =>
                ChatRun(HttpReply(200, answer), true, corpus, Some(InsertFor(projectId, question, answer)))
  }

  /** The store's answer to the insert never changes the reply: a failed
      save is logged and the answer still returned. */
  lemma SaveFailureSwallowed(body: Option<Json>, fetched: Outcome<seq<TranscriptRow>>, apiKeyPresent: bool,
                             reply: ModelReply.Reply, parse: string -> Option<Json>)
    ensures Handle(body, fetched, apiKeyPresent, reply, parse, Err)
         == Handle(body, fetched, apiKeyPresent, reply, parse, Ok(()))
  {
  }

  /** With transcripts present and a truthy model text that yields no
      parsed value (a string without a parsable span, or any truthy
      non-string), the request still succeeds with that text as the
      response and no quotes, and that is what gets recorded. */
  lemma FallbackAnswered(body: Json, rows: seq<TranscriptRow>, aiText: Json,
                         parse: string -> Option<Json>, saved: Outcome<()>)
    requires ValidRequest(body) && |rows| > 0 && Truthy(aiText)
    requires ModelReply.ParsedText(Some(aiText), parse).None?
    ensures Handle(Some(body), Ok(rows), true, ModelReply.Delivered(ModelReply.FirstPart(Some(aiText))), parse, saved)
         == ChatRun(HttpReply(200, FallbackAnswer(aiText)), true, Some(TranscriptCorpus(rows)),
                    Some(ConversationInsert(body.fields["projectId"], body.fields["question"], Some(aiText), JArr([]))))
  {
  }

  /** A number in place of the text is not a string, so it is answered as
      it stands rather than rejected. */
  lemma NumericTextAnswered(body: Json, rows: seq<TranscriptRow>, parse: string -> Option<Json>, saved: Outcome<()>)
    requires ValidRequest(body) && |rows| > 0
    ensures Handle(Some(body), Ok(rows), true, ModelReply.Delivered(ModelReply.FirstPart(Some(JNum(42.0)))), parse, saved).reply
         == HttpReply(200, JObj(map["response" := JNum(42.0), "quotes" := JArr([])]))
  {
    FallbackAnswered(body, rows, JNum(42.0), parse, saved);
  }

  /** A falsy text (absent, `null`, `false`, `0` or `""`) is rejected
      before any parsing, and nothing is recorded. */
  lemma FalsyTextRejected(body: Json, rows: seq<TranscriptRow>, aiText: Option<Json>,
                          parse: string -> Option<Json>, saved: Outcome<()>)
    requires ValidRequest(body) && |rows| > 0
    requires aiText.None? || !Truthy(aiText.value)
    ensures var r := Handle(Some(body), Ok(rows), true, ModelReply.Delivered(ModelReply.FirstPart(aiText)), parse, saved);
            r.reply == HttpReply(500, ErrorBody(NoTextMessage)) && r.inserted.None?
  {
  }

  /** When the model answers with a well-formed quote list, the answer is
      produced and every quote in it passed the speaker filter: none is
      attributed to the interviewer. */
  lemma AnsweredQuotesExcludeInterviewer(text: string, parse: string -> Option<Json>, parsed: Json)
    requires Extraction.ExtractSpan(text).Some?
    requires parse(Extraction.ExtractSpan(text).value) == Some(parsed)
    requires parsed.JObj? && "quotes" in parsed.fields && parsed.fields["quotes"].JArr?
    requires forall q :: q in parsed.fields["quotes"].items ==> QuoteFilter.WellFormedQuote(q)
    ensures Answer(JStr(text), parse).Ok?
    ensures var out := Answer(JStr(text), parse).value;
            out.JObj? && "quotes" in out.fields && out.fields["quotes"].JArr?
            && forall q :: q in out.fields["quotes"].items ==> q.JObj? && !QuoteFilter.ExcludedQuote(q)
  {
    var items := parsed.fields["quotes"].items;
    QuoteFilter.NoExcludedSurvivor(items);
    assert ParseOrFallback(JStr(text), parse) == parsed;
    assert HasQuotes(parsed);
    var kept := QuoteFilter.FilterQuotes(items).value;
    assert Answer(JStr(text), parse).value.fields["quotes"] == JArr(kept);
  }
}

=== FILE: chat_interface.dfy ===
/** `TranscriptChatInterface`: the chat box under a project. */
module ChatInterface {
  import opened Wrappers
  import Text
  import ChatConversationsHook

  /** The send button is disabled for a blank message or while sending. */
  function SendDisabled(message: string, sending: bool): (d: bool)
    ensures d <==> Text.AllWhitespace(message) || sending
  {
    Text.TrimEmptyIffAllWhitespace(message);
    Text.Trim(message) == "" || sending
  }

  /** A key press sends on Enter without Shift. */
  function KeySends(key: string, shift: bool): (b: bool)
    ensures b <==> key == "Enter" && !shift
  {
    key == "Enter" && !shift
  }

  /** The message box after a send attempt, and the hook's run when there
      was one. */
  datatype SendAttempt = SendAttempt(message: string, run: Option<ChatConversationsHook.SendRun>)

  /** `handleSendMessage`: refused exactly when the button is disabled;
      otherwise the trimmed message is sent and the box is cleared only
      when the hook reports success. */
  function HandleSend(message: string, chat: ChatConversationsHook.ChatState, projectId: string,
                      invoke: Outcome<()>, refetch: Outcome<Option<seq<ChatConversationsHook.ConversationRow>>>): (r: SendAttempt)
    ensures r.run.None? <==> SendDisabled(message, chat.sending)
    ensures r.run.None? ==> r.message == message
    ensures r.run.Some? ==>
              r.run.value.request == ChatConversationsHook.ChatRequest(Text.Trim(message), projectId)
              && (r.message == "" <==> r.run.value.returned || message == "")
              && (r.run.value.returned ==> r.message == "")
              && (!r.run.value.returned ==> r.message == message)
  {
    if Text.Trim(message) == "" || chat.sending then SendAttempt(message, None)
    else
      var run := ChatConversationsHook.SendMessage(chat, projectId, Text.Trim(message), invoke, refetch);
      SendAttempt(if run.returned then "" else message, Some(run))
  }

  /** A question that reaches the chat function is never blank and never
      padded with whitespace. */
  lemma SentQuestionIsClean(message: string, chat: ChatConversationsHook.ChatState, projectId: string,
                            invoke: Outcome<()>, refetch: Outcome<Option<seq<ChatConversationsHook.ConversationRow>>>)
    requires HandleSend(message, chat, projectId, invoke, refetch).run.Some?
    ensures var q := HandleSend(message, chat, projectId, invoke, refetch).run.value.request.question;
            q != "" && Text.Trim(q) == q
  {
    Text.TrimIdempotent(message);
  }

  /** A failed send keeps the typed message so it can be sent again, and
      the next attempt is not blocked by the sending flag. */
  lemma FailedSendCanRetry(message: string, chat: ChatConversationsHook.ChatState, projectId: string,
                           refetch: Outcome<Option<seq<ChatConversationsHook.ConversationRow>>>)
    requires !SendDisabled(message, chat.sending)
    ensures var r := HandleSend(message, chat, projectId, Err, refetch);
            r.message == message && !SendDisabled(r.message, r.run.value.after.sending)
  {
  }
}

=== FILE: context_input.dfy ===
/** `ProjectContextInput`: the box for adding text to the project's
    context. */
module ContextInput {
  import opened Wrappers
  import Text
  import ProjectContextHook

  datatype InputState = InputState(text: string, saving: bool)

  /** The box starts with the given context, or empty. */
  function Initial(initialContext: Option<string>): (r: InputState)
    ensures r.text == initialContext.GetOr("") && !r.saving
  {
    InputState(initialContext.GetOr(""), false)
  }

  /** A `handleSave` run: the box while saving, the box after, and the
      context hook's step. */
  datatype SaveRun = SaveRun(during: InputState, after: InputState, step: ProjectContextHook.Step)

  /** `handleSave`: the trimmed text is saved, with no blank check; the box
      is cleared only on success, and saving is on for the call only. */
  function HandleSave(s: InputState, context: ProjectContextHook.ContextState, ack: Outcome<()>): (r: SaveRun)
    ensures r.during == s.(saving := true) && !r.after.saving
    ensures r.step == ProjectContextHook.Save(context, Text.Trim(s.text), ack)
    ensures r.after.text == if r.step.returned then "" else s.text
  {
    var step := ProjectContextHook.Save(context, Text.Trim(s.text), ack);
    SaveRun(s.(saving := true), InputState(if step.returned then "" else s.text, false), step)
  }

  /** The save button is only disabled while saving, so saving a blank box
      onto an existing context appends a bare separator. */
  lemma BlankSaveAppendsSeparator(s: InputState, context: ProjectContextHook.ContextState)
    requires Text.AllWhitespace(s.text) && context.context != ""
    ensures HandleSave(s, context, Ok(())).step.state.context == context.context + ProjectContextHook.Separator
  {
    Text.TrimEmptyIffAllWhitespace(s.text);
  }

  /** On a successful save the text that reached the store ends with the
      trimmed box. */
  lemma SavedTextEndsWithInput(s: InputState, context: ProjectContextHook.ContextState)
    ensures var c := HandleSave(s, context, Ok(())).step.state.context;
            var t := Text.Trim(s.text);
            |t| <= |c| && c[|c| - |t|..] == t && c[..|context.context|] == context.context
  {
  }
}

=== FILE: corpus.dfy ===
/** The transcript corpus both edge functions paste into their prompt:
    one labelled block per transcript, blank lines between blocks. */
module Corpus {
  import Lists

  const BlockSeparator := "\n\n"

  /** One transcript rendered as `=== filename ===\ncontent`. */
  function Block(filename: string, content: string): (b: string)
    ensures |b| == |filename| + |content| + 9
    ensures b[9 + |filename|..] == content
  {
    "=== " + filename + " ===\n" + content
  }

  /** The blocks joined by `\n\n`, in the order given. */
  function Assemble(blocks: seq<string>): (a: string)
    ensures |blocks| == 0 ==> a == ""
    ensures |blocks| == 1 ==> a == blocks[0]
    ensures |blocks| > 0 ==> |a| == Lists.TotalLength(blocks) + (|blocks| - 1) * |BlockSeparator|
  {
    if |blocks| == 0 then Lists.Join(blocks, BlockSeparator)
    else
      Lists.JoinLength(blocks, BlockSeparator);
      Lists.Join(blocks, BlockSeparator)
  }

  /** A block keeps its file name and content recoverable: the header is
      fixed text around the name and the content follows the first line
      break after it. */
  lemma BlockParts(filename: string, content: string)
    ensures Block(filename, content)[..4] == "=== "
    ensures Block(filename, content)[4..4 + |filename|] == filename
    ensures Block(filename, content)[4 + |filename|..9 + |filename|] == " ===\n"
    ensures Block(filename, content)[9 + |filename|..] == content
  {
    var head := "=== " + filename;
    var tail := " ===\n";
    assert Block(filename, content) == head + (tail + content);
    assert (head + (tail + content))[|head|..|head| + 5] == (tail + content)[..5];
  }

  /** n blocks give n - 1 separators, and block i sits at its offset in
      the order the blocks were given. */
  lemma {:induction false} AssembleLayout(blocks: seq<string>, i: nat)
    requires i < |blocks|
    ensures |Assemble(blocks)| == Lists.TotalLength(blocks) + (|blocks| - 1) * |BlockSeparator|
    ensures Lists.Offset(blocks, BlockSeparator, i) + |blocks[i]| <= |Assemble(blocks)|
    ensures Assemble(blocks)[Lists.Offset(blocks, BlockSeparator, i)..Lists.Offset(blocks, BlockSeparator, i) + |blocks[i]|] == blocks[i]
  {
    Lists.JoinLength(blocks, BlockSeparator);
    Lists.JoinPieceAt(blocks, BlockSeparator, i);
  }
}

=== FILE: create_project_modal.dfy ===
/** `CreateProjectModal`: the new-project form. */
module CreateProjectModal {
  import opened Wrappers
  import Text

  datatype CreateForm = CreateForm(name: string, description: string, transcriptText: string)

  const Empty := CreateForm("", "", "")

  /** What the form hands on: trimmed fields, and the transcript text
      only when it is not blank. */
  datatype Submission = Submission(name: string, description: string, transcriptText: Option<string>)

  datatype SubmitStep = SubmitStep(form: CreateForm, submitted: Option<Submission>)

  /** `handleSubmit`: a blank name stops it; otherwise the trimmed values
      go out and the form is cleared at once, before the outcome of the
      creation is known. */
  function Submit(f: CreateForm): (r: SubmitStep)
    ensures r.submitted.Some? <==> !Text.AllWhitespace(f.name)
    ensures r.submitted.None? ==> r.form == f
    ensures r.submitted.Some? ==> r.form == Empty
    ensures r.submitted.Some? ==>
              r.submitted.value.name == Text.Trim(f.name) && r.submitted.value.name != ""
              && r.submitted.value.description == Text.Trim(f.description)
    ensures r.submitted.Some? ==>
              (r.submitted.value.transcriptText.None? <==> Text.AllWhitespace(f.transcriptText))
    ensures r.submitted.Some? && r.submitted.value.transcriptText.Some? ==>
              r.submitted.value.transcriptText.value == Text.Trim(f.transcriptText)
  {
    Text.TrimEmptyIffAllWhitespace(f.name);
    Text.TrimEmptyIffAllWhitespace(f.transcriptText);
    var name := Text.Trim(f.name);
    if name != "" then
      var text := Text.Trim(f.transcriptText);
      SubmitStep(Empty, Some(Submission(name, Text.Trim(f.description), if text != "" then Some(text) else None)))
    else SubmitStep(f, None)
  }

  /** `handleClose`: the form is cleared whatever it held. */
  function Close(f: CreateForm): (r: CreateForm)
    ensures r.name == "" && r.description == "" && r.transcriptText == ""
  {
    Empty
  }
}

=== FILE: edit_project_modal.dfy ===
/** `EditProjectModal`: the form for renaming and re-describing a
    project. */
module EditProjectModal {
  import opened Wrappers
  import Text
  import ProjectsHook

  datatype EditForm = EditForm(name: string, description: string)

  const Empty := EditForm("", "")

  /** The effect that fills the form when a project is given; without one
      the form keeps what it holds. */
  function Populate(f: EditForm, project: Option<ProjectsHook.Project>): (r: EditForm)
    ensures project.Some? ==> r == EditForm(project.value.name, project.value.description)
    ensures project.None? ==> r == f
  {
    if project.Some? then EditForm(project.value.name, project.value.description) else f
  }

  /** A submission: the project's id and the trimmed fields. */
  datatype Submission = Submission(id: string, input: ProjectsHook.ProjectInput)

  /** The form after a step, what was submitted, and whether the page was
      asked to close the dialog. */
  datatype SubmitStep = SubmitStep(form: EditForm, submitted: Option<Submission>, closeRequested: bool)

  /** `handleSubmit`: needs a non-blank name and a project; then the update
      is handed on and the dialog closed straight away, without waiting
      for the update's outcome. */
  function Submit(f: EditForm, project: Option<ProjectsHook.Project>): (r: SubmitStep)
    ensures r.submitted.Some? <==> !Text.AllWhitespace(f.name) && project.Some?
    ensures r.closeRequested <==> r.submitted.Some?
    ensures r.submitted.None? ==> r.form == f
    ensures r.submitted.Some? ==>
              r.form == Empty
              && r.submitted.value == Submission(project.value.id, ProjectsHook.ProjectInput(Text.Trim(f.name), Text.Trim(f.description)))
  {
    Text.TrimEmptyIffAllWhitespace(f.name);
    if Text.Trim(f.name) != "" && project.Some? then
      SubmitStep(Empty, Some(Submission(project.value.id, ProjectsHook.ProjectInput(Text.Trim(f.name), Text.Trim(f.description)))), true)
    else SubmitStep(f, None, false)
  }

  /** `handleClose`. */
  function Close(f: EditForm): (r: SubmitStep)
    ensures r.form == Empty && r.submitted.None? && r.closeRequested
  {
    SubmitStep(Empty, None, true)
  }

  /** Opening on a project and submitting unchanged sends the project's own
      values back, trimmed. */
  lemma UnchangedSubmitSendsProjectValues(f: EditForm, p: ProjectsHook.Project)
    requires !Text.AllWhitespace(p.name)
    ensures Submit(Populate(f, Some(p)), Some(p)).submitted ==
              Some(Submission(p.id, ProjectsHook.ProjectInput(Text.Trim(p.name), Text.Trim(p.description))))
  {
  }
}

=== FILE: extraction.dfy ===
/** The JSON span the edge functions cut out of the model's free text with
    `text.match(/\{[\s\S]*\}/)`: the regular expression is leftmost and
    greedy, and `[\s\S]` accepts every character. */
module Extraction {
  import opened Wrappers

  /** The pattern matches `s[a..b]`: it opens with `{` and closes with `}`. */
  ghost predicate PatternMatches(s: string, a: int, b: int) {
    0 <= a < b <= |s| && s[a] == '{' && s[b - 1] == '}'
  }

  /** What `String.prototype.match` returns for a non-global regular
      expression: the match starting at the smallest index, and of those the
      longest, because `*` is greedy and the engine backtracks from the end. */
  ghost predicate LeftmostGreedy(s: string, a: int, b: int) {
    && PatternMatches(s, a, b)
    && (forall a', b' :: PatternMatches(s, a', b') ==> a <= a')
    && (forall b' :: PatternMatches(s, a, b') ==> b' <= b)
  }

  /** Index of the first `c` in `s`. */
  function IndexOf(s: string, c: char): (r: Option<nat>)
    ensures r.None? <==> c !in s
    ensures r.Some? ==> r.value < |s| && s[r.value] == c && c !in s[..r.value]
  {
    if |s| == 0 then None
    else if s[0] == c then Some(0)
    else
      match IndexOf(s[1..], c)
      case None => None
      case Some(k) =>
        assert s[..k + 1] == [s[0]] + s[1..][..k];
        Some(k + 1)
  }

  /** Index of the last `c` in `s`. */
  function LastIndexOf(s: string, c: char): (r: Option<nat>)
    ensures r.None? <==> c !in s
    ensures r.Some? ==> r.value < |s| && s[r.value] == c && c !in s[r.value + 1..]
  {
    if |s| == 0 then None
    else if s[|s| - 1] == c then Some(|s| - 1)
    else
      var r := LastIndexOf(s[..|s| - 1], c);
      assert s == s[..|s| - 1] + [s[|s| - 1]];
      assert r.Some? ==> s[r.value + 1..] == s[..|s| - 1][r.value + 1..] + [s[|s| - 1]];
      r
  }

  /** Bounds `(a, b)` of the regular-expression match, computed as "from
      the first `{` to the last `}`". It exists exactly when some `{` comes
      before some `}`, and it is the match the regular expression finds. */
  function BraceSpan(s: string): (r: Option<(nat, nat)>)
    ensures r.Some? <==> exists a, b :: PatternMatches(s, a, b)
    ensures r.Some? ==> LeftmostGreedy(s, r.value.0, r.value.1)
  {
    match (IndexOf(s, '{'), LastIndexOf(s, '}'))
    case (Some(i), Some(j)) =>
      assert forall k :: 0 <= k < i ==> s[k] != '{' by {
        forall k | 0 <= k < i ensures s[k] != '{' { assert s[..i][k] == s[k]; }
      }
      assert forall k :: j < k < |s| ==> s[k] != '}' by {
        forall k | j < k < |s| ensures s[k] != '}' { assert s[j + 1..][k - j - 1] == s[k]; }
      }
      if i < j then
        assert PatternMatches(s, i, j + 1);
        Some((i, j + 1))
      else
        None
    case _ =>
      None
  }

  /** `jsonMatch[0]`: the matched text, a substring of `s` that starts with
      `{`, ends with `}`, and has no `{` before it and no `}` after it. */
  function ExtractSpan(s: string): (r: Option<string>)
    ensures r.Some? <==> exists a, b :: PatternMatches(s, a, b)
    ensures r.Some? ==> |r.value| >= 2 && r.value[0] == '{' && r.value[|r.value| - 1] == '}'
    ensures r.Some? ==> exists a :: 0 <= a && a + |r.value| <= |s| && s[a..a + |r.value|] == r.value
                                    && '{' !in s[..a] && '}' !in s[a + |r.value|..]
  {
    match BraceSpan(s)
    case None => None
    case Some((a, b)) =>
      assert forall k :: 0 <= k < a ==> !PatternMatches(s, k, b);
      assert forall k :: b < k <= |s| ==> !PatternMatches(s, a, k);
      Some(s[a..b])
  }

  /** Text without any `{` yields no span, whatever else it holds. */
  lemma NoOpeningBraceNoSpan(s: string)
    requires '{' !in s
    ensures ExtractSpan(s).None?
  {
  }

  /** A span that is already the whole text comes back unchanged. */
  lemma WholeObjectIsItsOwnSpan(s: string)
    requires |s| >= 2 && s[0] == '{' && s[|s| - 1] == '}'
    ensures ExtractSpan(s) == Some(s)
  {
    assert PatternMatches(s, 0, |s|);
    var r := BraceSpan(s);
    assert LeftmostGreedy(s, r.value.0, r.value.1);
    assert s[0..|s|] == s;
  }

  /** Prose around the object never changes the extracted span, provided
      the prose itself contains no braces. */
  lemma ProseAroundObject(pre: string, obj: string, post: string)
    requires |obj| >= 2 && obj[0] == '{' && obj[|obj| - 1] == '}'
    requires '{' !in pre && '}' !in pre && '{' !in post && '}' !in post
    ensures ExtractSpan(pre + obj + post) == Some(obj)
  {
    var s := pre + obj + post;
    var lo, hi := |pre|, |pre| + |obj|;
    assert PatternMatches(s, lo, hi);
    var r := BraceSpan(s);
    var (a, b) := r.value;
    assert LeftmostGreedy(s, a, b);
    NoneInPrefix(s, pre, '{');
    NoneInSuffix(s, post, '}');
    assert s[lo..hi] == obj;
  }

  /** A character absent from `pre` occurs nowhere in the first `|pre|`
      positions of `pre + rest`. */
  lemma NoneInPrefix(s: string, pre: string, c: char)
    requires |pre| <= |s| && s[..|pre|] == pre && c !in pre
    ensures forall k :: 0 <= k < |pre| ==> s[k] != c
  {
    forall k | 0 <= k < |pre|
      ensures s[k] != c
    {
      assert s[..|pre|][k] == s[k];
      assert pre[k] in pre;
    }
  }

  /** A character absent from `post` occurs nowhere in the last `|post|`
      positions of `rest + post`. */
  lemma NoneInSuffix(s: string, post: string, c: char)
    requires |post| <= |s| && s[|s| - |post|..] == post && c !in post
    ensures forall k :: |s| - |post| <= k < |s| ==> s[k] != c
  {
    forall k | |s| - |post| <= k < |s|
      ensures s[k] != c
    {
      assert s[|s| - |post|..][k - (|s| - |post|)] == s[k];
      assert post[k - (|s| - |post|)] in post;
    }
  }
}

=== FILE: file_upload.dfy ===
/** `FileUpload`: a drop zone and file picker that keeps a selection of
    PDF files and hands it to the page on upload. */
module FileUpload {
  import opened Wrappers
  import Lists
  import Text

  datatype FileInfo = FileInfo(name: string, mime: string, size: nat)

  datatype UploadState = UploadState(dragActive: bool, selected: seq<FileInfo>)

  const Initial := UploadState(false, [])

  const PdfMime := "application/pdf"

  predicate IsPdf(f: FileInfo) {
    f.mime == PdfMime
  }

  /** The files kept from a drop or a pick: the PDFs, in order. */
  function PdfOnly(files: seq<FileInfo>): (r: seq<FileInfo>)
    ensures forall f :: f in r ==> IsPdf(f)
    ensures forall f :: IsPdf(f) ==> multiset(r)[f] == multiset(files)[f]
    ensures Lists.IsSubsequence(r, files)
  {
    Lists.FilterIsSubsequence(files, IsPdf);
    Lists.Filter(files, IsPdf)
  }

  /** The selection only ever holds PDFs. */
  predicate Valid(s: UploadState) {
    forall f :: f in s.selected ==> IsPdf(f)
  }

  /** `handleDrag`: entering or moving over the zone highlights it,
      leaving clears the highlight, and other events change nothing. */
  function Drag(s: UploadState, eventType: string): (r: UploadState)
    ensures r.selected == s.selected
    ensures eventType == "dragenter" || eventType == "dragover" ==> r.dragActive
    ensures eventType == "dragleave" ==> !r.dragActive
    ensures eventType !in {"dragenter", "dragover", "dragleave"} ==> r == s
  {
    if eventType == "dragenter" || eventType == "dragover" then s.(dragActive := true)
    else if eventType == "dragleave" then s.(dragActive := false)
    else s
  }

  /** `handleDrop`: the highlight goes; the selection is replaced by the
      dropped PDFs when there is at least one. */
  function Drop(s: UploadState, files: seq<FileInfo>): (r: UploadState)
    ensures !r.dragActive
    ensures PdfOnly(files) != [] ==> r.selected == PdfOnly(files)
    ensures PdfOnly(files) == [] ==> r.selected == s.selected
  {
    var pdfs := PdfOnly(files);
    if |pdfs| > 0 then UploadState(false, pdfs) else s.(dragActive := false)
  }

  /** `handleFileSelect`: as a drop, without touching the highlight; no
      file list counts as an empty one. */
  function Select(s: UploadState, files: Option<seq<FileInfo>>): (r: UploadState)
    ensures r.dragActive == s.dragActive
    ensures PdfOnly(files.GetOr([])) != [] ==> r.selected == PdfOnly(files.GetOr([]))
    ensures PdfOnly(files.GetOr([])) == [] ==> r == s
  {
    var pdfs := PdfOnly(files.GetOr([]));
    if |pdfs| > 0 then s.(selected := pdfs) else s
  }

  /** `removeFile(index)`: drops the file at that position, and nothing
      when the position is out of range. */
  function RemoveFile(s: UploadState, index: int): (r: UploadState)
    ensures r.dragActive == s.dragActive
    ensures 0 <= index < |s.selected| ==> r.selected == s.selected[..index] + s.selected[index + 1..]
    ensures !(0 <= index < |s.selected|) ==> r.selected == s.selected
  {
    Lists.FilterIndexRemovesAt(s.selected, index, 0);
    s.(selected := Lists.FilterIndex(s.selected, index, 0))
  }

  datatype UploadStep = UploadStep(state: UploadState, forwarded: Option<seq<FileInfo>>)

  /** `handleUpload`: a non-empty selection is handed on and cleared. */
  function Upload(s: UploadState): (r: UploadStep)
    ensures s.selected == [] ==> r == UploadStep(s, None)
    ensures s.selected != [] ==> r.forwarded == Some(s.selected) && r.state.selected == []
    ensures r.state.dragActive == s.dragActive
  {
    if |s.selected| > 0 then UploadStep(s.(selected := []), Some(s.selected)) else UploadStep(s, None)
  }

  /** Every event keeps the selection PDF-only. */
  lemma EventsKeepValid(s: UploadState, eventType: string, files: seq<FileInfo>, picked: Option<seq<FileInfo>>, index: int)
    requires Valid(s)
    ensures Valid(Drag(s, eventType)) && Valid(Drop(s, files)) && Valid(Select(s, picked))
    ensures Valid(RemoveFile(s, index)) && Valid(Upload(s).state)
  {
    var r := RemoveFile(s, index);
    forall f | f in r.selected
      ensures IsPdf(f)
    {
      if 0 <= index < |s.selected| {
        assert f in s.selected[..index] || f in s.selected[index + 1..];
      }
    }
  }

  /** The upload button's label: the count, and "file" pluralised for
      any count but one. */
  function UploadLabel(n: nat): (r: string)
    ensures |r| == 12 + |Text.NatToString(n)| + (if n == 1 then 0 else 1)
    ensures r[..7] == "Upload " && r[7..7 + |Text.NatToString(n)|] == Text.NatToString(n)
    ensures r[|r| - 1] == 's' <==> n != 1
  {
    "Upload " + Text.NatToString(n) + " file" + (if n != 1 then "s" else "")
  }

  /** The label's digits read back as the count. */
  lemma UploadLabelCount(n: nat)
    ensures Text.DecimalValue(UploadLabel(n)[7..7 + |Text.NatToString(n)|]) == n
  {
    Text.NatToStringRoundTrip(n);
  }

  /** A file's size in tenths of a megabyte, rounded half up. */
  function SizeTenthsMb(bytes: nat): (t: nat)
    ensures t * 1048576 <= 10 * bytes + 524288 < (t + 1) * 1048576
  {
    (10 * bytes + 524288) / 1048576
  }
}

=== FILE: index_page.dfy ===
/** `Index`: the dashboard listing the user's projects, its statistics,
    and the create and edit dialogs. */
module IndexPage {
  import opened Wrappers
  import Text
  import Lists
  import ProjectsHook
  import CreateProjectModal
  import EditProjectModal

  type Project = ProjectsHook.Project

  /** `reduce((sum, p) => sum + p.transcript_count, 0)`, left to right. */
  function TotalTranscripts(ps: seq<Project>): (total: int)
    ensures (forall i :: 0 <= i < |ps| ==> ps[i].transcriptCount >= 0) ==> total >= 0
    ensures (forall i :: 0 <= i < |ps| ==> ps[i].transcriptCount == 0) ==> total == 0
    decreases |ps|
  {
    if |ps| == 0 then 0 else TotalTranscripts(ps[..|ps| - 1]) + ps[|ps| - 1].transcriptCount
  }

  /** The total splits over a concatenation, so the order of the list does
      not matter for it beyond that. */
  lemma {:induction false} TotalTranscriptsAppend(a: seq<Project>, b: seq<Project>)
    ensures TotalTranscripts(a + b) == TotalTranscripts(a) + TotalTranscripts(b)
    decreases |b|
  {
    if |b| > 0 {
      assert (a + b)[..|a + b| - 1] == a + b[..|b| - 1];
      TotalTranscriptsAppend(a, b[..|b| - 1]);
    } else {
      assert a + b == a;
    }
  }

  /** A project counts as analysed when its last-analysed date is truthy. */
  predicate Analyzed(p: Project) {
    p.lastAnalyzed.Some? && p.lastAnalyzed.value != ""
  }

  /** `filter(p => p.last_analyzed).length`. */
  function AnalyzedCount(ps: seq<Project>): (n: nat)
    ensures n <= |ps|
    ensures n == |ps| <==> forall i :: 0 <= i < |ps| ==> Analyzed(ps[i])
    ensures n == 0 <==> forall i :: 0 <= i < |ps| ==> !Analyzed(ps[i])
    decreases |ps|
  {
    if |ps| == 0 then 0
    else AnalyzedCount(ps[1..]) + (if Analyzed(ps[0]) then 1 else 0)
  }

  /** The count is the length of `filter(p => p.last_analyzed)`. */
  lemma {:induction false} AnalyzedCountIsFilterLength(ps: seq<Project>)
    ensures AnalyzedCount(ps) == |Lists.Filter(ps, Analyzed)|
    decreases |ps|
  {
    if |ps| > 0 {
      AnalyzedCountIsFilterLength(ps[1..]);
    }
  }

  /** The count splits over a concatenation, so creating or deleting a
      project moves it by at most one. */
  lemma {:induction false} AnalyzedCountAppend(a: seq<Project>, b: seq<Project>)
    ensures AnalyzedCount(a + b) == AnalyzedCount(a) + AnalyzedCount(b)
    decreases |a|
  {
    if |a| > 0 {
      assert (a + b)[1..] == a[1..] + b;
      AnalyzedCountAppend(a[1..], b);
    } else {
      assert a + b == b;
    }
  }

  /** The three figures on the dashboard. */
  datatype Stats = Stats(projects: nat, transcripts: int, insights: nat)

  function StatsOf(ps: seq<Project>): (st: Stats)
    ensures st.projects == |ps|
    ensures st.insights == 2 * AnalyzedCount(ps) && st.insights <= 2 * |ps|
    ensures st.transcripts == TotalTranscripts(ps)
  {
    Stats(|ps|, TotalTranscripts(ps), 2 * AnalyzedCount(ps))
  }

  /** A newly created project, put first, adds its count to the total. */
  lemma CreateAddsToTotal(s: ProjectsHook.ProjectsState, input: ProjectsHook.ProjectInput, row: Project)
    ensures StatsOf(ProjectsHook.Create(s, true, input, Ok(row)).state.projects).transcripts
            == row.transcriptCount + StatsOf(s.projects).transcripts
  {
    TotalTranscriptsAppend([row], s.projects);
    assert TotalTranscripts([row]) == TotalTranscripts([row][..0]) + row.transcriptCount;
  }

  datatype Dialogs = Dialogs(createOpen: bool, editOpen: bool, editing: Option<Project>)

  const Closed := Dialogs(false, false, None)

  /** `handleCreateProject`: the dialog closes only when a project came
      back. */
  function AfterCreate(d: Dialogs, result: Option<Project>): (r: Dialogs)
    ensures r.createOpen <==> d.createOpen && result.None?
    ensures r.editOpen == d.editOpen && r.editing == d.editing
  {
    if result.Some? then d.(createOpen := false) else d
  }

  /** `handleEditProject`. */
  function OpenEdit(d: Dialogs, p: Project): (r: Dialogs)
    ensures r.editOpen && r.editing == Some(p) && r.createOpen == d.createOpen
  {
    d.(editing := Some(p), editOpen := true)
  }

  /** The edit dialog's `onClose`. */
  function CloseEdit(d: Dialogs): (r: Dialogs)
    ensures !r.editOpen && r.editing.None? && r.createOpen == d.createOpen
  {
    d.(editOpen := false, editing := None)
  }

  /** `handleUpdateProject`: closes and forgets the project only when an
      updated project came back. */
  function AfterUpdate(d: Dialogs, result: Option<Project>): (r: Dialogs)
    ensures result.Some? ==> r == CloseEdit(d)
    ensures result.None? ==> r == d
  {
    if result.Some? then CloseEdit(d) else d
  }

  /** The page state the create flow touches. */
  datatype CreateFlow = CreateFlow(dialogs: Dialogs, form: CreateProjectModal.CreateForm, store: ProjectsHook.ProjectsState,
                                   inserted: Option<ProjectsHook.ProjectInput>)

  /** Submitting the create dialog: the form's name and description reach
      the store (the pasted transcript text does not), and the dialog then
      follows the store's answer. */
  function SubmitCreate(d: Dialogs, f: CreateProjectModal.CreateForm, s: ProjectsHook.ProjectsState,
                        authenticated: bool, answer: Outcome<Project>): (r: CreateFlow)
    ensures CreateProjectModal.Submit(f).submitted.None? ==> r == CreateFlow(d, f, s, None)
    ensures CreateProjectModal.Submit(f).submitted.Some? ==>
              var sub := CreateProjectModal.Submit(f).submitted.value;
              var created := ProjectsHook.Create(s, authenticated, ProjectsHook.ProjectInput(sub.name, sub.description), answer);
              && r.form == CreateProjectModal.Empty
              && r.store == created.state && r.inserted == created.inserted
              && (r.dialogs.createOpen <==> d.createOpen && created.result.None?)
              && r.dialogs.editOpen == d.editOpen && r.dialogs.editing == d.editing
  {
    var step := CreateProjectModal.Submit(f);
    match step.submitted
    case None => CreateFlow(d, f, s, None)
    case Some(sub) =>
      var created := ProjectsHook.Create(s, authenticated, ProjectsHook.ProjectInput(sub.name, sub.description), answer);
      CreateFlow(AfterCreate(d, created.result), step.form, created.state, created.inserted)
  }

  /** A failed creation leaves the dialog open, but its form has already
      been emptied, so what was typed is lost. */
  lemma FailedCreateLosesForm(d: Dialogs, f: CreateProjectModal.CreateForm, s: ProjectsHook.ProjectsState,
                              authenticated: bool, answer: Outcome<Project>)
    requires d.createOpen && CreateProjectModal.Submit(f).submitted.Some?
    requires !authenticated || answer.Err?
    ensures var r := SubmitCreate(d, f, s, authenticated, answer);
            r.dialogs.createOpen && r.form == CreateProjectModal.Empty && r.store == s
  {
  }

  /** A successful creation closes the dialog and puts the project first;
      what reaches the store is the trimmed name and description only. */
  lemma CreateStoresNameAndDescription(d: Dialogs, f: CreateProjectModal.CreateForm, s: ProjectsHook.ProjectsState, row: Project)
    requires CreateProjectModal.Submit(f).submitted.Some?
    ensures var r := SubmitCreate(d, f, s, true, Ok(row));
            var sub := CreateProjectModal.Submit(f).submitted.value;
            !r.dialogs.createOpen && r.store.projects == [row] + s.projects
            && r.inserted == Some(ProjectsHook.ProjectInput(sub.name, sub.description))
  {
  }

  /** The page state the edit flow touches. */
  datatype EditFlow = EditFlow(dialogs: Dialogs, store: ProjectsHook.ProjectsState,
                               written: Option<ProjectsHook.UpdateRequest>)

  /** Submitting the edit dialog: the dialog asks the page to close at
      once, then the update's answer arrives. */
  function SubmitEdit(d: Dialogs, f: EditProjectModal.EditForm, s: ProjectsHook.ProjectsState,
                      answer: Outcome<Project>): (r: EditFlow)
    ensures EditProjectModal.Submit(f, d.editing).submitted.None? ==> r == EditFlow(d, s, None)
    ensures EditProjectModal.Submit(f, d.editing).submitted.Some? ==>
              !r.dialogs.editOpen && r.dialogs.editing.None? && r.dialogs.createOpen == d.createOpen
    ensures EditProjectModal.Submit(f, d.editing).submitted.Some? ==>
              r.written == Some(ProjectsHook.UpdateRequest(d.editing.value.id,
                                  ProjectsHook.ProjectInput(Text.Trim(f.name), Text.Trim(f.description))))
    ensures EditProjectModal.Submit(f, d.editing).submitted.Some? ==>
              r.store == ProjectsHook.Update(s, d.editing.value.id,
                                             ProjectsHook.ProjectInput(Text.Trim(f.name), Text.Trim(f.description)), answer).state
  {
    var step := EditProjectModal.Submit(f, d.editing);
    if step.submitted.None? then EditFlow(d, s, None)
    else
      var sub := step.submitted.value;
      assert sub.id == d.editing.value.id;
      assert sub.input == ProjectsHook.ProjectInput(Text.Trim(f.name), Text.Trim(f.description));
      var closed := CloseEdit(d);
      var updated := ProjectsHook.Update(s, sub.id, sub.input, answer);
      EditFlow(AfterUpdate(closed, updated.result), updated.state, Some(updated.written))
  }

  /** Because the dialog closes itself on submit, a failed update closes
      it too: the guard in `handleUpdateProject` never keeps it open. */
  lemma EditDialogClosesEvenOnFailure(d: Dialogs, f: EditProjectModal.EditForm, s: ProjectsHook.ProjectsState,
                                      answer: Outcome<Project>)
    requires EditProjectModal.Submit(f, d.editing).submitted.Some?
    ensures var r := SubmitEdit(d, f, s, answer);
            !r.dialogs.editOpen && r.dialogs.editing.None?
    ensures answer.Err? ==> SubmitEdit(d, f, s, answer).store == s
  {
  }
}

=== FILE: json.dfy ===
/** JSON values as the edge functions see them after `JSON.parse`, with the
    two JavaScript behaviours the handlers depend on: truthiness and
    property reads. */
module Json {
  import opened Wrappers

  datatype Json =
    | JNull
    | JBool(b: bool)
    | JNum(n: real)
    | JStr(s: string)
    | JArr(items: seq<Json>)
    | JObj(fields: map<string, Json>)

  /** JavaScript truthiness of a parsed value (JSON has no NaN/undefined). */
  predicate Truthy(v: Json) {
    match v
    case JNull => false
    case JBool(b) => b
    case JNum(n) => n != 0.0
    case JStr(s) => s != ""
    case JArr(_) => true
    case JObj(_) => true
  }

  /** `v.key`: reading a property of `null` throws a TypeError (`Err`);
      reading one that a non-object or an object lacks gives `undefined`
      (`Ok(None)`). */
  function Prop(v: Json, key: string): (r: Outcome<Option<Json>>)
    ensures r.Err? <==> v.JNull?
    ensures r.Ok? && r.value.Some? <==> v.JObj? && key in v.fields
    ensures r.Ok? && r.value.Some? ==> r.value.value == v.fields[key]
  {
    match v
    case JNull => Err
    case JObj(m) => Ok(if key in m then Some(m[key]) else None)
    case _ => Ok(None)
  }

  /** The `{ error: message }` body every failing handler returns. */
  function ErrorBody(message: string): Json {
    JObj(map["error" := JStr(message)])
  }

  /** An HTTP reply: status and JSON body. */
  datatype HttpReply = HttpReply(status: nat, body: Json)
}

=== FILE: lists.dfy ===
/** The array operations the TypeScript code uses on its lists: `filter`,
    `map` with a conditional replacement, index-based removal and `join`. */
module Lists {

  /** `a` can be obtained from `b` by deleting elements: order is kept. */
  ghost predicate IsSubsequence<T>(a: seq<T>, b: seq<T>)
    decreases |b|
  {
    if |a| == 0 then true
    else if |b| == 0 then false
    else if a[0] == b[0] then IsSubsequence(a[1..], b[1..])
    else IsSubsequence(a, b[1..])
  }

  /** `s.filter(keep)`: each element survives exactly as often as it occurs
      in `s` when `keep` accepts it, and not at all otherwise. */
  function Filter<T(!new)>(s: seq<T>, keep: T -> bool): (r: seq<T>)
    ensures forall x :: multiset(r)[x] == if keep(x) then multiset(s)[x] else 0
    ensures forall i :: 0 <= i < |r| ==> keep(r[i])
  {
    if |s| == 0 then []
    else
      var rest := Filter(s[1..], keep);
      assert s == [s[0]] + s[1..];
      assert multiset(s) == multiset{s[0]} + multiset(s[1..]);
      if keep(s[0]) then [s[0]] + rest else rest
  }

  /** Filtering keeps the relative order of the survivors. */
  lemma {:induction false} FilterIsSubsequence<T(!new)>(s: seq<T>, keep: T -> bool)
    ensures IsSubsequence(Filter(s, keep), s)
  {
    if |s| > 0 {
      FilterIsSubsequence(s[1..], keep);
      var rest := Filter(s[1..], keep);
      if !keep(s[0]) {
        SubsequenceDropHead(rest, s);
      }
    }
  }

  /** Deleting the head of the longer sequence keeps a subsequence one. */
  lemma {:induction false} SubsequenceDropHead<T>(a: seq<T>, b: seq<T>)
    requires |b| > 0 && IsSubsequence(a, b[1..])
    ensures IsSubsequence(a, b)
    decreases |b|, 0
  {
    if |a| > 0 && a[0] == b[0] {
      SubsequenceDropFirst(a, b[1..]);
    }
  }

  /** Deleting the head of the shorter sequence keeps a subsequence one. */
  lemma {:induction false} SubsequenceDropFirst<T>(a: seq<T>, c: seq<T>)
    requires |a| > 0 && IsSubsequence(a, c)
    ensures IsSubsequence(a[1..], c)
    decreases |c|, 1
  {
    if a[0] == c[0] {
      SubsequenceDropHead(a[1..], c);
    } else {
      SubsequenceDropFirst(a, c[1..]);
      SubsequenceDropHead(a[1..], c);
    }
  }

  /** A list every element of which is accepted passes the filter
      unchanged. */
  lemma {:induction false} FilterKeepsAll<T(!new)>(s: seq<T>, keep: T -> bool)
    requires forall i :: 0 <= i < |s| ==> keep(s[i])
    ensures Filter(s, keep) == s
  {
    if |s| > 0 {
      FilterKeepsAll(s[1..], keep);
      assert [s[0]] + s[1..] == s;
    }
  }

  /** Filtering is idempotent. */
  lemma FilterIdempotent<T(!new)>(s: seq<T>, keep: T -> bool)
    ensures Filter(Filter(s, keep), keep) == Filter(s, keep)
  {
    FilterKeepsAll(Filter(s, keep), keep);
  }

  /** `s.map(x => matches(x) ? v : x)`: same length, every matching entry
      replaced by `v` and every other entry left in its position. */
  function ReplaceWhere<T>(s: seq<T>, matches: T -> bool, v: T): (r: seq<T>)
    ensures |r| == |s|
    ensures forall i :: 0 <= i < |s| && matches(s[i]) ==> r[i] == v
    ensures forall i :: 0 <= i < |s| && !matches(s[i]) ==> r[i] == s[i]
  {
    seq(|s|, i requires 0 <= i < |s| => if matches(s[i]) then v else s[i])
  }

  /** When the replacement itself matches, replacing again changes
      nothing. */
  lemma ReplaceWhereIdempotent<T>(s: seq<T>, matches: T -> bool, v: T)
    requires matches(v)
    ensures ReplaceWhere(ReplaceWhere(s, matches, v), matches, v) == ReplaceWhere(s, matches, v)
  {
  }

  /** `s.filter((_, j) => j !== i)` written the way JavaScript evaluates it:
      walk the list carrying the index of the current element. */
  function FilterIndex<T>(s: seq<T>, i: int, from: int): (r: seq<T>)
    decreases |s|
  {
    if |s| == 0 then []
    else (if from == i then [] else [s[0]]) + FilterIndex(s[1..], i, from + 1)
  }

  /** Removing index `i` by filtering deletes exactly `s[i]` when `i` is in
      range and nothing otherwise. */
  lemma {:induction false} FilterIndexRemovesAt<T>(s: seq<T>, i: int, from: int)
    ensures FilterIndex(s, i, from) == if from <= i < from + |s| then s[..i - from] + s[i - from + 1..] else s
    decreases |s|
  {
    if |s| > 0 {
      FilterIndexRemovesAt(s[1..], i, from + 1);
      if from < i < from + |s| {
        assert s[..i - from] == [s[0]] + s[1..][..i - from - 1];
        assert s[i - from + 1..] == s[1..][i - from..];
      } else if i == from {
        assert s[1..] == s[..0] + s[1..];
      } else {
        assert s == [s[0]] + s[1..];
      }
    }
  }

  /** `bs.join(sep)`. */
  function Join(bs: seq<string>, sep: string): string
    decreases |bs|
  {
    if |bs| == 0 then "" else if |bs| == 1 then bs[0] else bs[0] + sep + Join(bs[1..], sep)
  }

  function TotalLength(bs: seq<string>): nat {
    if |bs| == 0 then 0 else |bs[0]| + TotalLength(bs[1..])
  }

  /** A join of n >= 1 pieces is the pieces plus exactly n - 1 separators. */
  lemma {:induction false} JoinLength(bs: seq<string>, sep: string)
    requires |bs| >= 1
    ensures |Join(bs, sep)| == TotalLength(bs) + (|bs| - 1) * |sep|
  {
    if |bs| > 1 {
      JoinLength(bs[1..], sep);
    }
  }

  /** Where piece `i` starts in the joined string. */
  function Offset(bs: seq<string>, sep: string, i: nat): nat
    requires i <= |bs|
  {
    if i == 0 then 0 else |bs[0]| + |sep| + Offset(bs[1..], sep, i - 1)
  }

  /** A slice taken at `k + a` is the slice at `a` of the suffix from `k`. */
  lemma SliceOfSuffix(j: string, k: nat, a: nat, b: nat)
    requires a <= b && k + b <= |j|
    ensures j[k + a..k + b] == j[k..][a..b]
  {
  }

  /** Piece `i` sits at `Offset(i)`, in input order, and the next piece
      starts one piece and one separator later. */
  lemma {:induction false} JoinPieceAt(bs: seq<string>, sep: string, i: nat)
    requires i < |bs|
    ensures Offset(bs, sep, i) + |bs[i]| <= |Join(bs, sep)|
    ensures Join(bs, sep)[Offset(bs, sep, i)..Offset(bs, sep, i) + |bs[i]|] == bs[i]
    ensures i + 1 < |bs| ==> Offset(bs, sep, i + 1) == Offset(bs, sep, i) + |bs[i]| + |sep|
  {
    var j := Join(bs, sep);
    if i == 0 {
      if |bs| > 1 {
        assert j == bs[0] + sep + Join(bs[1..], sep);
        assert j[..|bs[0]|] == bs[0];
      }
    } else {
      JoinPieceAt(bs[1..], sep, i - 1);
      var rest := Join(bs[1..], sep);
      var k := |bs[0]| + |sep|;
      assert j == bs[0] + sep + rest;
      assert j[k..] == rest;
      var o := Offset(bs[1..], sep, i - 1);
      SliceOfSuffix(j, k, o, o + |bs[i]|);
    }
  }

  /** Between piece `i` and piece `i + 1` there is exactly one separator. */
  lemma {:induction false} JoinSeparatorAt(bs: seq<string>, sep: string, i: nat)
    requires i + 1 < |bs|
    ensures Offset(bs, sep, i + 1) == Offset(bs, sep, i) + |bs[i]| + |sep|
    ensures Offset(bs, sep, i + 1) <= |Join(bs, sep)|
    ensures Join(bs, sep)[Offset(bs, sep, i) + |bs[i]|..Offset(bs, sep, i + 1)] == sep
  {
    JoinPieceAt(bs, sep, i);
    JoinPieceAt(bs, sep, i + 1);
    var j := Join(bs, sep);
    if i == 0 {
      assert j == bs[0] + sep + Join(bs[1..], sep);
    } else {
      JoinSeparatorAt(bs[1..], sep, i - 1);
      var rest := Join(bs[1..], sep);
      var k := |bs[0]| + |sep|;
      assert j == bs[0] + sep + rest;
      assert j[k..] == rest;
      var o := Offset(bs[1..], sep, i - 1);
      SliceOfSuffix(j, k, o + |bs[i]|, Offset(bs[1..], sep, i));
    }
  }
}

=== FILE: model_reply.dfy ===
/** The reply of the text-generation endpoint, reduced to the parts of the
    `candidates[0].content.parts[0].text` path the edge functions read. */
module ModelReply {
  import opened Wrappers
  import opened Json
  import Extraction

  /** What `candidates[0].content` holds. */
  datatype ContentShape =
    /** no candidates, no first candidate, or a falsy `content` */
    | NoContent
    /** `content` present but `parts` or `parts[0]` missing: a strict read
        of `parts[0].text` throws a TypeError whose message the JavaScript
        engine writes */
    | NoFirstPart(typeErrorMessage: string)
    /** `parts[0]` present; `text` is its `text` value as parsed, `None`
        when the property is absent */
    | FirstPart(text: Option<Json>)

  datatype Reply =
    /** `response.ok` is false: the HTTP status and the body text */
    | HttpFailure(status: nat, body: string)
    /** a 2xx reply whose body is not JSON, or is `null`: reading the body
        or its `candidates` throws with the engine's message */
    | Unreadable(message: string)
    /** a 2xx reply whose JSON envelope has the given shape */
    | Delivered(content: ContentShape)

  /** `candidates?.[0]?.content?.parts?.[0]?.text` read with optional
      chaining, as the chat function does: any missing link is `undefined`. */
  function OptionalText(c: ContentShape): (r: Option<Json>)
    ensures r.Some? <==> c.FirstPart? && c.text.Some?
    ensures r.Some? ==> r.value == c.text.value
  {
    match c
    case FirstPart(t) => t
    case _ => None
  }

  /** The value `JSON.parse` gives for the brace span of the model's
      `text`, when that text is a string holding a span that parses.
      Calling `match` on any other value throws a TypeError, and a
      missing span or a failed parse throws as well. */
  function ParsedText(text: Option<Json>, parse: string -> Option<Json>): (v: Option<Json>)
    ensures v.Some? <==> && text.Some? && text.value.JStr?
                         && Extraction.ExtractSpan(text.value.s).Some?
                         && parse(Extraction.ExtractSpan(text.value.s).value).Some?
    ensures v.Some? ==> v.value == parse(Extraction.ExtractSpan(text.value.s).value).value
  {
    if text.Some? && text.value.JStr? then
      match Extraction.ExtractSpan(text.value.s)
      case None => None
      case Some(span) => parse(span)
    else None
  }
}

=== FILE: project_context_hook.dfy ===
/** `useProjectContext`: the project's free-text context, kept locally and
    in the store. Every change is written to the store first and applied
    locally only when the store reports success. */
module ProjectContextHook {
  import opened Wrappers

  const Separator := "\n\n---\n\n"

  datatype ContextState = ContextState(context: string, loading: bool)

  const Initial := ContextState("", true)

  /** The value a save writes: the addition alone onto an empty context,
      otherwise the old context, the separator and the addition. There is
      no emptiness check on the addition. */
  function Appended(existing: string, addition: string): (r: string)
    ensures existing == "" ==> r == addition
    ensures existing != "" ==> |r| == |existing| + |Separator| + |addition|
    ensures |existing| <= |r| && r[..|existing|] == existing
    ensures |addition| <= |r| && r[|r| - |addition|..] == addition
    ensures existing != "" ==> r[|existing|..|existing| + |Separator|] == Separator
  {
    if existing != "" then
      var r := existing + Separator + addition;
      assert r[..|existing|] == existing;
      assert r[|existing|..|existing| + |Separator|] == Separator;
      r
    else addition
  }

  /** `fetchContext`: a null or missing context reads as `""`; on a store
      error the local context is kept. Loading ends either way. */
  function Fetch(s: ContextState, answer: Outcome<Option<string>>): (r: ContextState)
    ensures !r.loading
    ensures answer.Err? ==> r.context == s.context
    ensures answer.Ok? ==> r.context == answer.value.GetOr("")
  {
    match answer
    case Err => s.(loading := false)
    case Ok(c) => ContextState(c.GetOr(""), false)
  }

  /** A mutation: the resulting state, the boolean handed back to the
      caller, and the context value sent to the store. */
  datatype Step = Step(state: ContextState, returned: bool, written: string)

  /** `saveContext(addition)`. */
  function Save(s: ContextState, addition: string, ack: Outcome<()>): (r: Step)
    ensures r.written == Appended(s.context, addition)
    ensures r.returned <==> ack.Ok?
    ensures ack.Ok? ==> r.state.context == r.written
    ensures ack.Err? ==> r.state == s
    ensures r.state.loading == s.loading
  {
    var updated := Appended(s.context, addition);
    if ack.Ok? then Step(s.(context := updated), true, updated) else Step(s, false, updated)
  }

  /** `updateContext(replacement)`: the whole context is replaced. */
  function Update(s: ContextState, replacement: string, ack: Outcome<()>): (r: Step)
    ensures r.written == replacement
    ensures r.returned <==> ack.Ok?
    ensures ack.Ok? ==> r.state.context == replacement
    ensures ack.Err? ==> r.state == s
  {
    if ack.Ok? then Step(s.(context := replacement), true, replacement) else Step(s, false, replacement)
  }

  /** `deleteContext()`: the context becomes empty. */
  function Delete(s: ContextState, ack: Outcome<()>): (r: Step)
    ensures r.written == ""
    ensures r.returned <==> ack.Ok?
    ensures ack.Ok? ==> r.state.context == ""
    ensures ack.Err? ==> r.state == s
  {
    if ack.Ok? then Step(s.(context := ""), true, "") else Step(s, false, "")
  }

  /** After a successful delete, the next successful save stores exactly
      the new text. */
  lemma SaveAfterDelete(s: ContextState, addition: string)
    ensures Save(Delete(s, Ok(())).state, addition, Ok(())).state.context == addition
  {
  }

  /** Saving an empty addition onto a non-empty context still appends the
      bare separator. */
  lemma SaveEmptyAppendsSeparator(s: ContextState)
    requires s.context != ""
    ensures Save(s, "", Ok(())).state.context == s.context + Separator
  {
  }

  /** Saves with their store answers, applied in order. */
  function SaveAll(s: ContextState, additions: seq<string>, acks: seq<Outcome<()>>): ContextState
    requires |additions| == |acks|
    decreases |additions|
  {
    if |additions| == 0 then s
    else SaveAll(Save(s, additions[0], acks[0]).state, additions[1..], acks[1..])
  }

  /** Saves only ever extend the context: whatever was there stays a
      prefix, whichever of them succeed. */
  lemma {:induction false} SavesOnlyExtend(s: ContextState, additions: seq<string>, acks: seq<Outcome<()>>)
    requires |additions| == |acks|
    ensures |s.context| <= |SaveAll(s, additions, acks).context|
    ensures SaveAll(s, additions, acks).context[..|s.context|] == s.context
    decreases |additions|
  {
    if |additions| > 0 {
      var next := Save(s, additions[0], acks[0]).state;
      SavesOnlyExtend(next, additions[1..], acks[1..]);
      var final := SaveAll(next, additions[1..], acks[1..]).context;
      assert final[..|s.context|] == final[..|next.context|][..|s.context|];
    }
  }
}

=== FILE: project_detail_page.dfy ===
/** `ProjectDetail`: a project page holding a placeholder project and the
    transcripts pasted into it during the visit. */
module ProjectDetailPage {
  import opened Wrappers
  import Text
  import TranscriptsHook
  import TranscriptTextInput

  const PlaceholderName := "New Project"
  const PlaceholderDescription := "Add transcripts to analyze themes and disagreements"
  const DefaultId := "1"

  datatype DetailProject = DetailProject(id: string, name: string, description: string, transcriptCount: nat)

  datatype LocalTranscript = LocalTranscript(id: string, filename: string, sizeTenths: nat, content: string)

  datatype DetailState = DetailState(project: Option<DetailProject>, transcripts: seq<LocalTranscript>)

  /** The project's count agrees with the transcripts on the page. */
  predicate CountInSync(s: DetailState) {
    s.project.Some? ==> s.project.value.transcriptCount == |s.transcripts|
  }

  /** Arriving at a route: a placeholder project under the route's id, or
      "1" when the id is missing or empty, and no transcripts. */
  function OnRoute(routeId: Option<string>): (r: DetailState)
    ensures r.transcripts == [] && r.project.Some?
    ensures r.project.value.id == if routeId.Some? && routeId.value != "" then routeId.value else DefaultId
    ensures r.project.value.name == PlaceholderName && r.project.value.description == PlaceholderDescription
    ensures CountInSync(r)
  {
    var id := if routeId.Some? && routeId.value != "" then routeId.value else DefaultId;
    DetailState(Some(DetailProject(id, PlaceholderName, PlaceholderDescription, 0)), [])
  }

  /** `handleTranscriptAdd`: the transcript goes last, sized as the
      transcripts hook sizes it, under an id the caller supplies. */
  function TranscriptAdd(s: DetailState, filename: string, content: string, newId: string): (r: DetailState)
    ensures r.transcripts == s.transcripts + [LocalTranscript(newId, filename, TranscriptsHook.SizeTenths(|content|), content)]
    ensures s.project.None? ==> r.project.None?
    ensures s.project.Some? ==>
              r.project == Some(s.project.value.(transcriptCount := |s.transcripts| + 1))
    ensures CountInSync(r)
  {
    var t := LocalTranscript(newId, filename, TranscriptsHook.SizeTenths(|content|), content);
    var project := if s.project.Some? then Some(s.project.value.(transcriptCount := |s.transcripts| + 1)) else None;
    DetailState(project, s.transcripts + [t])
  }

  /** Pasting through the form: an accepted paste is added last under the
      supplied id, with the trimmed name and text and the size of the
      trimmed text; a refused one changes nothing. */
  function PasteOne(s: DetailState, form: TranscriptTextInput.TextForm, id: string): (r: DetailState)
    ensures TranscriptTextInput.Submit(form).added.None? ==> r == s
    ensures TranscriptTextInput.Submit(form).added.Some? ==>
              |r.transcripts| == |s.transcripts| + 1 && r.transcripts[|s.transcripts|].id == id
    ensures TranscriptTextInput.Submit(form).added.Some? ==>
              r.transcripts[|s.transcripts|]
              == LocalTranscript(id, Text.Trim(form.filename),
                                 TranscriptsHook.SizeTenths(|Text.Trim(form.text)|), Text.Trim(form.text))
    ensures CountInSync(s) ==> CountInSync(r)
    ensures s.transcripts <= r.transcripts
  {
    var step := TranscriptTextInput.Submit(form);
    if step.added.Some? then TranscriptAdd(s, step.added.value.filename, step.added.value.content, id) else s
  }

  /** Pastes applied in order, with one supplied id per paste. */
  function PasteAll(s: DetailState, forms: seq<TranscriptTextInput.TextForm>, ids: seq<string>): DetailState
    requires |forms| == |ids|
    decreases |forms|
  {
    if |forms| == 0 then s else PasteAll(PasteOne(s, forms[0], ids[0]), forms[1..], ids[1..])
  }

  /** However many pastes follow the route, the count shown always equals
      the number of transcripts, and only accepted pastes add one. */
  lemma {:induction false} PastesKeepCountInSync(s: DetailState, forms: seq<TranscriptTextInput.TextForm>, ids: seq<string>)
    requires |forms| == |ids|
    requires CountInSync(s)
    ensures CountInSync(PasteAll(s, forms, ids))
    ensures |PasteAll(s, forms, ids).transcripts| <= |s.transcripts| + |forms|
    ensures s.transcripts <= PasteAll(s, forms, ids).transcripts
    decreases |forms|
  {
    if |forms| > 0 {
      PastesKeepCountInSync(PasteOne(s, forms[0], ids[0]), forms[1..], ids[1..]);
    }
  }
}

=== FILE: projects_hook.dfy ===
/** `useProjects`: the signed-in user's project list, mirrored from the
    store. */
module ProjectsHook {
  import opened Wrappers
  import Lists

  /** A project as the list holds it. */
  datatype Project = Project(
    id: string, name: string, description: string, transcriptCount: int,
    createdAt: string, lastAnalyzed: Option<string>)

  /** A row of the project query, with its `transcripts(count)` aggregate:
      `None` when the aggregate is missing, otherwise the counts of its
      rows. */
  datatype ProjectRow = ProjectRow(
    id: string, name: string, description: string, createdAt: string,
    lastAnalyzed: Option<string>, countAggregate: Option<seq<nat>>)

  /** What a create or an update sends: name and description only. */
  datatype ProjectInput = ProjectInput(name: string, description: string)

  datatype ProjectsState = ProjectsState(projects: seq<Project>, loading: bool)

  const Initial := ProjectsState([], true)

  /** `transcript_count?.[0]?.count || 0`. */
  function FlattenCount(aggregate: Option<seq<nat>>): (n: nat)
    ensures aggregate.Some? && |aggregate.value| > 0 ==> n == aggregate.value[0]
    ensures aggregate.None? || aggregate.value == [] ==> n == 0
  {
    if aggregate.Some? && |aggregate.value| > 0 then aggregate.value[0] else 0
  }

  function Flatten(row: ProjectRow): (p: Project)
    ensures p.id == row.id && p.transcriptCount == FlattenCount(row.countAggregate)
  {
    Project(row.id, row.name, row.description, FlattenCount(row.countAggregate), row.createdAt, row.lastAnalyzed)
  }

  /** `fetchProjects`: no user empties the list; a store error keeps it;
      otherwise the rows (none when the answer is missing), flattened, in
      the order the store gave them. */
  function Fetch(s: ProjectsState, authenticated: bool, answer: Outcome<Option<seq<ProjectRow>>>): (r: ProjectsState)
    ensures !r.loading
    ensures !authenticated ==> r.projects == []
    ensures authenticated && answer.Err? ==> r.projects == s.projects
    ensures authenticated && answer.Ok? ==>
              var rows := answer.value.GetOr([]);
              |r.projects| == |rows| && forall i :: 0 <= i < |rows| ==> r.projects[i] == Flatten(rows[i])
  {
    if !authenticated then ProjectsState([], false)
    else
      match answer
      case Err => s.(loading := false)
      case Ok(rows) =>
        var rs := rows.GetOr([]);
        ProjectsState(seq(|rs|, i requires 0 <= i < |rs| => Flatten(rs[i])), false)
  }

  datatype CreateStep = CreateStep(state: ProjectsState, result: Option<Project>, inserted: Option<ProjectInput>)

  /** `createProject(input)`: with no user nothing is written; on success
      the stored row is put first. */
  function Create(s: ProjectsState, authenticated: bool, input: ProjectInput, answer: Outcome<Project>): (r: CreateStep)
    ensures !authenticated ==> r == CreateStep(s, None, None)
    ensures authenticated ==> r.inserted == Some(input)
    ensures answer.Err? ==> r.state == s && r.result.None?
    ensures authenticated && answer.Ok? ==>
              r.result == Some(answer.value) && r.state.projects == [answer.value] + s.projects
              && |r.state.projects| == |s.projects| + 1
  {
    if !authenticated then CreateStep(s, None, None)
    else
      match answer
      case Err => CreateStep(s, None, Some(input))
      case Ok(row) => CreateStep(s.(projects := [row] + s.projects), Some(row), Some(input))
  }

  /** What `updateProject` writes: the row's id and its new name and
      description. */
  datatype UpdateRequest = UpdateRequest(id: string, input: ProjectInput)

  datatype UpdateStep = UpdateStep(state: ProjectsState, result: Option<Project>, written: UpdateRequest)

  /** `updateProject(id, input)`: the name and description are always
      written for that id; on success every entry with that id is replaced
      by the stored row, in place. */
  function Update(s: ProjectsState, id: string, input: ProjectInput, answer: Outcome<Project>): (r: UpdateStep)
    ensures r.written == UpdateRequest(id, input)
    ensures answer.Err? ==> r.state == s && r.result.None?
    ensures answer.Ok? ==> r.result == Some(answer.value)
    ensures |r.state.projects| == |s.projects|
    ensures forall i :: 0 <= i < |s.projects| && s.projects[i].id != id ==> r.state.projects[i] == s.projects[i]
    ensures answer.Ok? ==>
              forall i :: 0 <= i < |s.projects| && s.projects[i].id == id ==> r.state.projects[i] == answer.value
  {
    var request := UpdateRequest(id, input);
    match answer
    case Err => UpdateStep(s, None, request)
    case Ok(row) => UpdateStep(s.(projects := Lists.ReplaceWhere(s.projects, (p: Project) => p.id == id, row)), Some(row), request)
  }

  datatype DeleteStep = DeleteStep(state: ProjectsState, returned: bool)

  /** `deleteProject(id)`: on success every entry with that id goes and
      every other entry stays, as often as it was there. */
  function Delete(s: ProjectsState, id: string, ack: Outcome<()>): (r: DeleteStep)
    ensures r.returned <==> ack.Ok?
    ensures ack.Err? ==> r.state == s
    ensures ack.Ok? ==> forall p :: p in r.state.projects ==> p.id != id
    ensures ack.Ok? ==>
              forall p: Project :: p.id != id ==> multiset(r.state.projects)[p] == multiset(s.projects)[p]
  {
    if ack.Ok? then
      var kept := Lists.Filter(s.projects, (p: Project) => p.id != id);
      assert forall p :: p in kept ==> multiset(kept)[p] > 0;
      DeleteStep(s.(projects := kept), true)
    else DeleteStep(s, false)
  }

  /** A successful delete keeps the survivors in their relative order. */
  lemma DeleteKeepsOrder(s: ProjectsState, id: string)
    ensures Lists.IsSubsequence(Delete(s, id, Ok(())).state.projects, s.projects)
  {
    Lists.FilterIsSubsequence(s.projects, (p: Project) => p.id != id);
  }

  /** Creating a project and then deleting it by its id removes it again
      and leaves the rest of the list as it was, when the id was new. */
  lemma CreateThenDelete(s: ProjectsState, input: ProjectInput, row: Project)
    requires forall p :: p in s.projects ==> p.id != row.id
    ensures Delete(Create(s, true, input, Ok(row)).state, row.id, Ok(())).state.projects == s.projects
  {
    var f := (p: Project) => p.id != row.id;
    Lists.FilterKeepsAll(s.projects, f);
    assert Lists.Filter([row] + s.projects, f) == Lists.Filter(s.projects, f) by {
      assert ([row] + s.projects)[1..] == s.projects;
    }
  }
}

=== FILE: quote_filter.dfy ===
/** The post-hoc speaker filter of the chat edge function: quotes whose
    `participant` mentions "jamie" or "horton", or whose `text` mentions
    "jamie horton", after lower-casing, are dropped. The filter is written
    as JavaScript evaluates it, including the TypeErrors a malformed quote
    raises. */
module QuoteFilter {
  import opened Wrappers
  import opened Json
  import Text
  import Lists

  const FirstName := "jamie"
  const LastName := "horton"
  const FullName := "jamie horton"

  /** `quote.key?.toLowerCase()`: `Ok(None)` when the property is absent or
      null (optional chaining), the lower-cased string when it is a string,
      and a TypeError (`Err`) when the quote is null or the property holds a
      value without `toLowerCase`. */
  function LowerField(q: Json, key: string): (r: Outcome<Option<string>>)
    ensures r.Ok? && r.value.Some? <==> q.JObj? && key in q.fields && q.fields[key].JStr?
    ensures r.Ok? && r.value.Some? ==> r.value.value == Text.ToLower(q.fields[key].s)
  {
    match Prop(q, key)
    case Err => Err
    case Ok(None) => Ok(None)
    case Ok(Some(JNull)) => Ok(None)
    case Ok(Some(JStr(s))) => Ok(Some(Text.ToLower(s)))
    case Ok(Some(_)) => Err
  }

  predicate Mentions(field: Option<string>, name: string) {
    field.Some? && Text.Includes(field.value, name)
  }

  /** The filter callback, evaluated left to right with `&&`
      short-circuiting: a quote already rejected on `participant` never has
      its `text` read. */
  function KeepQuote(q: Json): (r: Outcome<bool>)
    ensures WellFormedQuote(q) ==> r == Ok(!ExcludedQuote(q))
    ensures q.JNull? ==> r.Err?
    ensures (q.JObj? && "participant" in q.fields
             && !q.fields["participant"].JNull? && !q.fields["participant"].JStr?) ==> r.Err?
  {
    match LowerField(q, "participant")
    case Err => Err
    case Ok(p) =>
      if Mentions(p, FirstName) || Mentions(p, LastName) then Ok(false)
      else
        match LowerField(q, "text")
        case Err => Err
        case Ok(t) => Ok(!Mentions(t, FullName))
  }

  /** A quote object whose `participant` and `text` are each a string, null
      or absent: the shape the prompt asks the model for. */
  predicate WellFormedQuote(q: Json) {
    && q.JObj?
    && ("participant" in q.fields ==> q.fields["participant"].JNull? || q.fields["participant"].JStr?)
    && ("text" in q.fields ==> q.fields["text"].JNull? || q.fields["text"].JStr?)
  }

  /** The lower-cased string held under `key`, if there is one. */
  function LowerText(q: Json, key: string): Option<string>
    requires q.JObj?
  {
    if key in q.fields && q.fields[key].JStr? then Some(Text.ToLower(q.fields[key].s)) else None
  }

  /** The exclusion rule stated on the quote's fields. */
  predicate ExcludedQuote(q: Json)
    requires q.JObj?
  {
    || Mentions(LowerText(q, "participant"), FirstName)
    || Mentions(LowerText(q, "participant"), LastName)
    || Mentions(LowerText(q, "text"), FullName)
  }

  /** A well-formed quote never makes the callback throw, and it is kept
      exactly when neither its participant mentions "jamie" or "horton" nor
      its text mentions "jamie horton". A missing field never removes it. */
  lemma KeepQuoteIff(q: Json)
    requires WellFormedQuote(q)
    ensures KeepQuote(q) == Ok(!ExcludedQuote(q))
  {
  }

  /** A quote with no participant and no text is always kept. */
  lemma MissingFieldsKept(q: Json)
    requires q.JObj? && "participant" !in q.fields && "text" !in q.fields
    ensures KeepQuote(q) == Ok(true)
  {
  }

  /** A quote attributed to anyone whose name contains "Jamie" (any case
      of the ASCII letters) is dropped, whatever its text. */
  lemma AttributedToJamieDropped(q: Json, pre: string, post: string)
    requires q.JObj? && "participant" in q.fields
    requires q.fields["participant"] == JStr(pre + "Jamie" + post)
    ensures KeepQuote(q) == Ok(false)
  {
    var p := Text.ToLower(pre + "Jamie" + post);
    assert p == Text.ToLower(pre) + FirstName + Text.ToLower(post);
    Text.IncludesInfix(Text.ToLower(pre), FirstName, Text.ToLower(post));
  }

  predicate Kept(q: Json) {
    KeepQuote(q) == Ok(true)
  }

  /** `quotes.filter(callback)`: throws as soon as the callback throws on
      some element; otherwise keeps exactly the accepted quotes. */
  function FilterQuotes(qs: seq<Json>): (r: Outcome<seq<Json>>)
    ensures r.Ok? <==> forall i :: 0 <= i < |qs| ==> KeepQuote(qs[i]).Ok?
    ensures r.Ok? ==> r.value == Lists.Filter(qs, Kept)
  {
    if |qs| == 0 then Ok([])
    else
      match KeepQuote(qs[0])
      case Err => Err
      case Ok(k) =>
        match FilterQuotes(qs[1..])
        case Err =>
          assert exists i :: 0 <= i < |qs[1..]| && KeepQuote(qs[1..][i]).Err?;
          Err
        case Ok(rest) =>
          assert forall i :: 0 < i < |qs| ==> qs[i] == qs[1..][i - 1];
          Ok(if k then [qs[0]] + rest else rest)
  }

  /** The surviving quotes keep their order and each passes the callback. */
  lemma FilterQuotesSubsequence(qs: seq<Json>)
    requires FilterQuotes(qs).Ok?
    ensures Lists.IsSubsequence(FilterQuotes(qs).value, qs)
    ensures forall i :: 0 <= i < |FilterQuotes(qs).value| ==> Kept(FilterQuotes(qs).value[i])
  {
    Lists.FilterIsSubsequence(qs, Kept);
  }

  /** Filtering the filtered list again changes nothing. */
  lemma FilterQuotesIdempotent(qs: seq<Json>)
    requires FilterQuotes(qs).Ok?
    ensures FilterQuotes(FilterQuotes(qs).value) == FilterQuotes(qs)
  {
    var r := FilterQuotes(qs).value;
    Lists.FilterKeepsAll(r, Kept);
  }

  /** After filtering well-formed quotes, no survivor is attributed to a
      name containing "jamie" or "horton". */
  lemma NoExcludedSurvivor(qs: seq<Json>)
    requires forall i :: 0 <= i < |qs| ==> WellFormedQuote(qs[i])
    ensures FilterQuotes(qs).Ok?
    ensures forall q :: q in FilterQuotes(qs).value ==> q.JObj? && !ExcludedQuote(q)
  {
    forall i | 0 <= i < |qs| ensures KeepQuote(qs[i]).Ok? {
      KeepQuoteIff(qs[i]);
    }
    var r := FilterQuotes(qs).value;
    forall q | q in r ensures q.JObj? && !ExcludedQuote(q) {
      assert multiset(r)[q] > 0;
      assert q in qs;
      KeepQuoteIff(q);
    }
  }
}

=== FILE: quote_toggle.dfy ===
/** `QuoteCleanupToggle`: shows a quote and, on request, an AI-cleaned
    version of it, fetched once and then toggled. */
module QuoteToggle {
  import opened Wrappers
  import opened Json

  datatype ToggleState = ToggleState(cleaned: Option<Json>, showCleaned: bool, loading: bool)

  const Initial := ToggleState(None, false, false)

  const CleanUpLabel := "Clean Up Quote"
  const ShowOriginalLabel := "Show Original"
  const ShowCleanedLabel := "Show Cleaned"

  /** A cleaned quote counts only when it is truthy. */
  predicate HasCleaned(s: ToggleState) {
    s.cleaned.Some? && Truthy(s.cleaned.value)
  }

  /** What the cleanup function is asked. */
  datatype CleanupRequest = CleanupRequest(quote: string, participant: string, context: Option<string>)

  datatype CleanupRun = CleanupRun(during: Option<ToggleState>, after: ToggleState, request: Option<CleanupRequest>)

  /** `cleanupQuote`: with a cleaned quote at hand the click only flips
      the view. Otherwise the function is called; success stores its
      `cleanedQuote` (whatever it is) and shows it, while a failed call or
      a `null` answer leaves everything but the loading flag as it was. */
  function CleanupClick(s: ToggleState, original: string, participant: string, context: Option<string>,
                        answer: Outcome<Json>): (r: CleanupRun)
    ensures HasCleaned(s) ==> r == CleanupRun(None, Toggle(s), None)
    ensures !HasCleaned(s) ==>
              r.request == Some(CleanupRequest(original, participant, context))
              && r.during == Some(s.(loading := true)) && !r.after.loading
    ensures !HasCleaned(s) && (answer.Err? || answer.value.JNull?) ==> r.after == s.(loading := false)
    ensures !HasCleaned(s) && answer.Ok? && answer.value.JObj? ==>
              r.after.showCleaned
              && r.after.cleaned == (if "cleanedQuote" in answer.value.fields then Some(answer.value.fields["cleanedQuote"]) else None)
  {
    if HasCleaned(s) then CleanupRun(None, Toggle(s), None)
    else
      var request := Some(CleanupRequest(original, participant, context));
      var during := s.(loading := true);
      var failed := CleanupRun(Some(during), s.(loading := false), request);
      match answer
      case Err => failed
      case Ok(data) =>
        match Prop(data, "cleanedQuote")
        case Err => failed
        case Ok(c) => CleanupRun(Some(during), ToggleState(c, true, false), request)
  }

  /** `toggleVersion`. */
  function Toggle(s: ToggleState): (r: ToggleState)
    ensures r.showCleaned != s.showCleaned && r.cleaned == s.cleaned && r.loading == s.loading
  {
    s.(showCleaned := !s.showCleaned)
  }

  /** Toggling twice restores the view. */
  lemma ToggleTwice(s: ToggleState)
    ensures Toggle(Toggle(s)) == s
  {
  }

  /** The quote shown: the cleaned one when it is wanted and present,
      the original otherwise. */
  function Displayed(s: ToggleState, original: string): (q: Json)
    ensures s.showCleaned && HasCleaned(s) ==> q == s.cleaned.value
    ensures !(s.showCleaned && HasCleaned(s)) ==> q == JStr(original)
  {
    if s.showCleaned && HasCleaned(s) then s.cleaned.value else JStr(original)
  }

  /** The main button's label. */
  function MainLabel(s: ToggleState): (l: string)
    ensures l == CleanUpLabel <==> !HasCleaned(s)
    ensures HasCleaned(s) ==> (l == ShowOriginalLabel <==> s.showCleaned)
  {
    if HasCleaned(s) then (if s.showCleaned then ShowOriginalLabel else ShowCleanedLabel) else CleanUpLabel
  }

  /** Once a cleaned quote is there, the label always offers the version
      not on screen. */
  lemma LabelOffersOtherVersion(s: ToggleState, original: string)
    requires HasCleaned(s)
    ensures MainLabel(s) == ShowOriginalLabel || MainLabel(s) == ShowCleanedLabel
    ensures MainLabel(s) == ShowOriginalLabel ==> Displayed(s, original) == s.cleaned.value
    ensures MainLabel(s) == ShowCleanedLabel ==> Displayed(s, original) == JStr(original)
  {
    assert Truthy(s.cleaned.value);
  }

  /** After a successful cleanup that produced a usable quote, the next
      click calls nothing and goes back to the original. */
  lemma SecondClickOnlyToggles(s: ToggleState, original: string, participant: string, context: Option<string>,
                               answer: Outcome<Json>, next: Outcome<Json>)
    requires !HasCleaned(s)
    requires HasCleaned(CleanupClick(s, original, participant, context, answer).after)
    ensures var a := CleanupClick(s, original, participant, context, answer).after;
            var b := CleanupClick(a, original, participant, context, next);
            b.request.None? && Displayed(b.after, original) == JStr(original)
  {
  }
}

=== FILE: text.dfy ===
/** String primitives the TypeScript code relies on: `trim()`,
    `toLowerCase()`, `includes()` and number-to-string conversion. */
module Text {

  /** The characters JavaScript's `String.prototype.trim` removes: the
      WhiteSpace and LineTerminator code points of ECMAScript. */
  predicate IsWhitespace(c: char) {
    || c == '\t' || c == '\n' || c == '\U{000B}' || c == '\U{000C}' || c == '\r'
    || c == ' ' || c == '\U{00A0}' || c == '\U{1680}'
    || ('\U{2000}' <= c <= '\U{200A}')
    || c == '\U{2028}' || c == '\U{2029}' || c == '\U{202F}' || c == '\U{205F}'
    || c == '\U{3000}' || c == '\U{FEFF}'
  }

  predicate AllWhitespace(s: string) {
    forall i :: 0 <= i < |s| ==> IsWhitespace(s[i])
  }

  /** Drops leading whitespace: the result is a suffix of `s` and only
      whitespace was dropped. */
  function TrimStart(s: string): (r: string)
    ensures |r| <= |s| && r == s[|s| - |r|..]
    ensures AllWhitespace(s[..|s| - |r|])
    ensures r == [] || !IsWhitespace(r[0])
  {
    if |s| > 0 && IsWhitespace(s[0]) then
      var r := TrimStart(s[1..]);
      assert s[..|s| - |r|] == [s[0]] + s[1..][..|s[1..]| - |r|];
      r
    else s
  }

  /** Drops trailing whitespace: the result is a prefix of `s` and only
      whitespace was dropped. */
  function TrimEnd(s: string): (r: string)
    ensures |r| <= |s| && r == s[..|r|]
    ensures AllWhitespace(s[|r|..])
    ensures r == [] || !IsWhitespace(r[|r| - 1])
  {
    if |s| > 0 && IsWhitespace(s[|s| - 1]) then
      var r := TrimEnd(s[..|s| - 1]);
      assert s[|r|..] == s[..|s| - 1][|r|..] + [s[|s| - 1]];
      r
    else s
  }

  /** `r` sits in `s` at `i` with nothing but whitespace around it. */
  ghost predicate FramedBy(s: string, i: int, r: string) {
    0 <= i && i + |r| <= |s| && r == s[i..i + |r|]
    && AllWhitespace(s[..i]) && AllWhitespace(s[i + |r|..])
  }

  /** `s.trim()`: the longest infix of `s` that neither starts nor ends
      with whitespace, everything cut off being whitespace. */
  function Trim(s: string): (r: string)
    ensures exists i :: FramedBy(s, i, r)
    ensures r == [] || (!IsWhitespace(r[0]) && !IsWhitespace(r[|r| - 1]))
  {
    var t := TrimStart(s);
    var r := TrimEnd(t);
    TrimFramed(s, t, r);
    r
  }

  lemma TrimFramed(s: string, t: string, r: string)
    requires |t| <= |s| && t == s[|s| - |t|..] && AllWhitespace(s[..|s| - |t|])
    requires |r| <= |t| && r == t[..|r|] && AllWhitespace(t[|r|..])
    ensures FramedBy(s, |s| - |t|, r)
  {
    var i := |s| - |t|;
    assert s[i..i + |r|] == r;
    assert s[i + |r|..] == t[|r|..];
  }

  /** A trimmed string is empty exactly when the input was all whitespace:
      this is the JavaScript falsiness test `!s.trim()`. */
  lemma {:induction false} TrimEmptyIffAllWhitespace(s: string)
    ensures Trim(s) == [] <==> AllWhitespace(s)
  {
    if AllWhitespace(s) {
      TrimStartAllWhitespace(s);
    } else {
      var k :| 0 <= k < |s| && !IsWhitespace(s[k]);
      var t := TrimStart(s);
      assert s[..|s| - |t|] + t == s;
      assert t != [];
      var r := TrimEnd(t);
      assert t[|r|..] == t || r != [];
    }
  }

  lemma {:induction false} TrimStartAllWhitespace(s: string)
    requires AllWhitespace(s)
    ensures TrimStart(s) == []
    decreases |s|
  {
    if |s| > 0 {
      TrimStartAllWhitespace(s[1..]);
    }
  }

  /** Trimming twice is trimming once. */
  lemma TrimIdempotent(s: string)
    ensures Trim(Trim(s)) == Trim(s)
  {
    var r := Trim(s);
    if r != [] {
      assert TrimStart(r) == r;
      assert TrimEnd(r) == r;
    }
  }

  /** JavaScript `toLowerCase` on one character, for the ASCII letters. */
  function LowerChar(c: char): char {
    if 'A' <= c <= 'Z' then (c as int + 32) as char else c
  }

  /** `s.toLowerCase()`. Only ASCII upper-case letters are mapped; see the
      README for why this is exact for every comparison the model makes. */
  function ToLower(s: string): (r: string)
    ensures |r| == |s|
    ensures forall i :: 0 <= i < |s| ==> r[i] == LowerChar(s[i])
  {
    seq(|s|, i requires 0 <= i < |s| => LowerChar(s[i]))
  }

  /** `needle` occurs in `hay` starting at index `k`. */
  ghost predicate OccursAt(hay: string, needle: string, k: int) {
    0 <= k && k + |needle| <= |hay| && hay[k..k + |needle|] == needle
  }

  predicate StartsWith(hay: string, needle: string) {
    |needle| <= |hay| && hay[..|needle|] == needle
  }

  /** `hay.includes(needle)`, computed by trying each start position in
      turn; it holds exactly when `needle` occurs somewhere in `hay`. */
  function Includes(hay: string, needle: string): (b: bool)
    ensures b <==> exists k :: OccursAt(hay, needle, k)
    decreases |hay|
  {
    if StartsWith(hay, needle) then
      assert OccursAt(hay, needle, 0);
      true
    else if |hay| == 0 then
      assert forall k :: !OccursAt(hay, needle, k);
      false
    else
      var rest := Includes(hay[1..], needle);
      assert forall k :: OccursAt(hay[1..], needle, k) <==> OccursAt(hay, needle, k + 1);
      assert !OccursAt(hay, needle, 0);
      assert forall k :: OccursAt(hay, needle, k) ==> k == 0 || OccursAt(hay[1..], needle, k - 1);
      rest
  }

  /** Any string contains the text it was built around. */
  lemma IncludesInfix(a: string, needle: string, b: string)
    ensures Includes(a + needle + b, needle)
  {
    assert OccursAt(a + needle + b, needle, |a|);
  }

  function DigitChar(d: nat): (c: char)
    requires d < 10
    ensures '0' <= c <= '9'
  {
    ('0' as int + d) as char
  }

  /** Decimal rendering of a non-negative integer, as JavaScript's
      `String(n)` / template-literal interpolation produces it. */
  function NatToString(n: nat): (s: string)
    ensures |s| >= 1
    ensures forall i :: 0 <= i < |s| ==> '0' <= s[i] <= '9'
    ensures |s| > 1 ==> s[0] != '0'
  {
    if n < 10 then [DigitChar(n)] else NatToString(n / 10) + [DigitChar(n % 10)]
  }

  /** The value a string of decimal digits denotes. */
  function DecimalValue(s: string): nat
    requires forall i :: 0 <= i < |s| ==> '0' <= s[i] <= '9'
  {
    if |s| == 0 then 0
    else 10 * DecimalValue(s[..|s| - 1]) + (s[|s| - 1] as int - '0' as int)
  }

  /** Reading back the rendered digits gives the number again. */
  lemma {:induction false} NatToStringRoundTrip(n: nat)
    ensures DecimalValue(NatToString(n)) == n
  {
    if n >= 10 {
      NatToStringRoundTrip(n / 10);
      var s := NatToString(n);
      assert s[..|s| - 1] == NatToString(n / 10);
    }
  }
}

=== FILE: transcript_text_input.dfy ===
/** `TranscriptTextInput`: a form for pasting a transcript with a name. */
module TranscriptTextInput {
  import opened Wrappers
  import Text

  datatype TextForm = TextForm(filename: string, text: string)

  const Empty := TextForm("", "")

  /** What the form hands to the page. */
  datatype PastedTranscript = PastedTranscript(filename: string, content: string)

  /** Both fields must hold something besides whitespace. */
  predicate CanSubmit(f: TextForm) {
    Text.Trim(f.text) != "" && Text.Trim(f.filename) != ""
  }

  /** The submit button is disabled exactly when submitting would be
      refused. */
  function SubmitDisabled(f: TextForm): (d: bool)
    ensures d <==> Text.AllWhitespace(f.text) || Text.AllWhitespace(f.filename)
  {
    Text.TrimEmptyIffAllWhitespace(f.text);
    Text.TrimEmptyIffAllWhitespace(f.filename);
    !CanSubmit(f)
  }

  datatype SubmitStep = SubmitStep(form: TextForm, added: Option<PastedTranscript>)

  /** `handleSubmit`: the trimmed name and text are handed on and both
      fields are cleared; otherwise nothing happens. */
  function Submit(f: TextForm): (r: SubmitStep)
    ensures r.added.Some? <==> !SubmitDisabled(f)
    ensures r.added.None? ==> r.form == f
    ensures r.added.Some? ==> r.form == Empty
    ensures r.added.Some? ==> r.added.value == PastedTranscript(Text.Trim(f.filename), Text.Trim(f.text))
  {
    if CanSubmit(f) then SubmitStep(Empty, Some(PastedTranscript(Text.Trim(f.filename), Text.Trim(f.text))))
    else SubmitStep(f, None)
  }

  /** Whatever is handed on is non-empty and carries no surrounding
      whitespace. */
  lemma AddedIsClean(f: TextForm)
    requires Submit(f).added.Some?
    ensures var t := Submit(f).added.value;
            t.content != "" && t.filename != ""
            && !Text.IsWhitespace(t.content[0]) && !Text.IsWhitespace(t.content[|t.content| - 1])
            && Text.Trim(t.content) == t.content && Text.Trim(t.filename) == t.filename
  {
    Text.TrimIdempotent(f.text);
    Text.TrimIdempotent(f.filename);
  }
}

=== FILE: transcripts_hook.dfy ===
/** `useTranscripts`: the transcripts of one project, newest first. */
module TranscriptsHook {
  import opened Wrappers
  import Lists

  /** A transcript's size in tenths of a kilobyte: the length divided by
      1024, rounded half up to one decimal, with the decimal kept as an
      integer count of tenths. */
  function SizeTenths(length: nat): (t: nat)
    ensures t * 1024 <= 10 * length + 512 < (t + 1) * 1024
  {
    (10 * length + 512) / 1024
  }

  /** The characterization above pins the size down: any count of tenths
      whose interval holds the rounded length is the size. */
  lemma SizeTenthsUnique(length: nat, t: nat)
    requires t * 1024 <= 10 * length + 512 < (t + 1) * 1024
    ensures t == SizeTenths(length)
  {
  }

  /** A longer content never shows a smaller size. */
  lemma SizeTenthsMonotone(a: nat, b: nat)
    requires a <= b
    ensures SizeTenths(a) <= SizeTenths(b)
  {
  }

  /** Small transcripts: up to 51 characters show as 0.0 KB, and exactly
      1024 characters as 1.0 KB. */
  lemma SizeTenthsSamples()
    ensures SizeTenths(0) == 0 && SizeTenths(51) == 0 && SizeTenths(52) == 1
    ensures SizeTenths(1024) == 10
  {
  }

  datatype Transcript = Transcript(id: string, filename: string, content: string, sizeTenths: nat, createdAt: string)

  /** What `addTranscript` inserts. */
  datatype NewTranscript = NewTranscript(projectId: string, filename: string, content: string, sizeTenths: nat)

  datatype TranscriptsState = TranscriptsState(transcripts: seq<Transcript>, loading: bool)

  const Initial := TranscriptsState([], true)

  /** `fetchTranscripts`: the rows as the store orders them (newest first),
      a missing answer as no rows; a store error keeps the list. */
  function Fetch(s: TranscriptsState, answer: Outcome<Option<seq<Transcript>>>): (r: TranscriptsState)
    ensures !r.loading
    ensures answer.Err? ==> r.transcripts == s.transcripts
    ensures answer.Ok? ==> r.transcripts == answer.value.GetOr([])
  {
    match answer
    case Err => s.(loading := false)
    case Ok(rows) => TranscriptsState(rows.GetOr([]), false)
  }

  datatype AddStep = AddStep(state: TranscriptsState, returned: bool, inserted: NewTranscript)

  /** `addTranscript`: the inserted size is computed from the content; on
      success the stored row goes first. */
  function Add(s: TranscriptsState, projectId: string, filename: string, content: string, answer: Outcome<Transcript>): (r: AddStep)
    ensures r.inserted == NewTranscript(projectId, filename, content, SizeTenths(|content|))
    ensures r.returned <==> answer.Ok?
    ensures answer.Err? ==> r.state == s
    ensures answer.Ok? ==> r.state.transcripts == [answer.value] + s.transcripts
  {
    var row := NewTranscript(projectId, filename, content, SizeTenths(|content|));
    match answer
    case Err => AddStep(s, false, row)
    case Ok(stored) => AddStep(s.(transcripts := [stored] + s.transcripts), true, row)
  }

  /** `deleteTranscript`: on success every transcript with that id goes
      and every other stays, as often as it was there. */
  function Delete(s: TranscriptsState, id: string, ack: Outcome<()>): (r: TranscriptsState)
    ensures ack.Err? ==> r == s
    ensures ack.Ok? ==> forall t :: t in r.transcripts ==> t.id != id
    ensures ack.Ok? ==>
              forall t: Transcript :: t.id != id ==> multiset(r.transcripts)[t] == multiset(s.transcripts)[t]
    ensures r.loading == s.loading
  {
    if ack.Ok? then
      var kept := Lists.Filter(s.transcripts, (t: Transcript) => t.id != id);
      assert forall t :: t in kept ==> multiset(kept)[t] > 0;
      s.(transcripts := kept)
    else s
  }

  /** Adding a transcript with a fresh id and deleting it again gives back
      the list as it was. */
  lemma AddThenDelete(s: TranscriptsState, projectId: string, filename: string, content: string, stored: Transcript)
    requires forall t :: t in s.transcripts ==> t.id != stored.id
    ensures Delete(Add(s, projectId, filename, content, Ok(stored)).state, stored.id, Ok(())).transcripts == s.transcripts
  {
    var f := (t: Transcript) => t.id != stored.id;
    Lists.FilterKeepsAll(s.transcripts, f);
    assert ([stored] + s.transcripts)[1..] == s.transcripts;
  }
}

=== FILE: wrappers.dfy ===
/** Failure-carrying datatypes shared by every module of the model. */
module Wrappers {

  /** A value that may be absent (JavaScript `undefined`/`null`). */
  datatype Option<+T> = None | Some(value: T) {
    function GetOr(default: T): T {
      match this
      case Some(v) => v
      case None => default
    }
  }

  /** The answer of an external collaborator (the managed store, an edge
      function invocation) or of a JavaScript expression that may throw:
      either a value or a failure whose details the code never inspects. */
  datatype Outcome<+T> = Ok(value: T) | Err
}
